=== FILE: README.md ===
# Baghdad food-delivery data: seeder and KPI analyzer, in Dafny

This project models the two scripts of a small food-delivery analytics setup for
Baghdad:

- **The seeder** fills a database with synthetic data. It starts from two fixed
  tables: twelve neighbourhoods (`BAGHDAD_AREAS`) and, for each one, its
  restaurant brands with their cuisines (`AREA_VENDORS`). It then does two things:
  - It writes one vendor row per (area, brand). A brand that appears in more than
    one area gets the name `"<brand> - <area>"`; a brand in a single area keeps
    its bare name.
  - It generates orders. Each order picks a customer, a driver and a vendor. Its
    pickup area is the vendor's area. Its dropoff area is another neighbourhood,
    redrawn until it differs from the pickup. The distance, minutes, subtotal,
    fee, tip, status and driver rating come from random draws. The uniform and
    integer draws have fixed ranges. The tip and rating draws are Gaussian and
    unbounded: the seeder floors the tip at 0 and clamps the rating to
    [1.0, 5.0].
- **The analyzer** reads the orders and computes KPIs:
  - the global counts and rates, the averages, and the SLA fractions for 25, 30,
    35 and 40 minutes;
  - the dropoff-area table;
  - the repeat-customer rate;
  - the busiest hour in each vendor area;
  - the three vendors with the most orders in each vendor area;
  - the weekend flag.

Modules follow the scripts:

| module | file | contents |
|---|---|---|
| `Options`, `Seqs`, `Money` | options.dfy, seqs.dfy, money.dfy | option type; counting, filtering, sums, means and sorting on sequences; Python's `round(x, 2)` and `int()` |
| `Records` | records.dfy | the order and vendor rows and the three statuses |
| `Baghdad` | baghdad.dfy | the area and area-to-brands tables and their well-formedness |
| `VendorNaming` | vendor_naming.dfy | the two naming loops and the uniqueness of the names |
| `OrderSeeding` | order_seeding.dfy | one order row per set of draws, and the order loop |
| `Kpis` | kpis.dfy | delivered filter, revenue, global KPIs, SLA fractions, weekend flag |
| `AreaAnalysis` | area_analysis.dfy | the dropoff-area table |
| `CustomerBehavior` | customer_behavior.dfy | the repeat-customer rate |
| `VendorAreas` | vendor_areas.dfy | the vendor join, peak hour per area, top 3 vendors per area |

How the model stands in for the scripts:

- **Random draws are inputs.** Every draw behind an order row is a field of an
  `OrderDraw`: a position for each `random.choice`, the value each `uniform`,
  `randint` or `gauss` returned, and for each weighted `choices` the value it
  returned (for the status, its position in the status list). The dropoff redraw loop,
  which may call `random.choice(BAGHDAD_AREAS)` several times, is a single pick
  among the areas other than the pickup area. The vendor-rating draws are a
  separate input to `BuildVendorRows`. Only the support of each distribution is
  modelled (`InSupport`), not its weights.
- **Database reads are inputs.** The analyzer's database reads become sequences
  of `Order` rows and a map from vendor id to `Vendor`.
- **Timestamps** are a day number counted from 1970-01-01 plus hour and minute.
- **Vendor tables group on the vendor's area.** The area table at
  analysis.py:119 groups by `dropoff_area`. The peak-hour and top-vendor tables
  do not: they group on the `area` column that the merge at analysis.py:46
  brings in from the vendor table. That is the vendor's area, which for seeded
  orders equals the pickup area. An order whose vendor id has no vendor row
  gets a missing (NaN) area from the merge, and `groupby` drops it.
- **Amounts are exact reals.** `round(x, 2)` rounds to the nearest cent, with
  ties to the even cent.

## Model

| member | source | states |
|---|---|---|
| Baghdad.KeysAreAreas | seed_data_baghdad_vendors.py:28-36 | the brand table lists exactly the twelve neighbourhoods, in the same order, and no neighbourhood twice |
| Baghdad.BrandListsChecked | seed_data_baghdad_vendors.py:35-129 | within every area's list no brand occurs twice and no brand name contains a dash |
| Baghdad.TableWellFormed | seed_data_baghdad_vendors.py:28-129 | the area-to-brands table meets the conditions the naming scheme needs: distinct area keys, brands distinct within an area, dash-free brand names |
| VendorNaming.EntriesOfWellFormed | seed_data_baghdad_vendors.py:172-178 | `Entries` flattens the table in the nested loops' order (area, then brand); flattening a well-formed table yields (area, brand) pairs that are pairwise distinct, with dash-free brands, each in one of the table's areas |
| VendorNaming.NameCounts | seed_data_baghdad_vendors.py:170-174 | the counting loop's map holds exactly the brands that occur, each with its number of occurrences across all areas |
| VendorNaming.BuildVendorRows | seed_data_baghdad_vendors.py:176-185 | one vendor row per (area, brand) in table order, with that brand's cuisine, that area, the name `UniqueName` gives (line 178's rule: suffixed when the brand's count exceeds one, bare otherwise), and a rating in [3.6, 4.9] |
| VendorNaming.BareNameIffSingle | seed_data_baghdad_vendors.py:178 | `UniqueName`, the naming rule of line 178, keeps the bare brand name exactly when the brand occurs once in the whole table |
| VendorNaming.SuffixInjective | seed_data_baghdad_vendors.py:178 | `"<brand> - <area>"` determines both brand and area when brand names are dash-free |
| VendorNaming.UniqueNamesDistinct | seed_data_baghdad_vendors.py:169-178 | on distinct dash-free (area, brand) pairs, the generated vendor names are pairwise distinct |
| VendorNaming.SeededVendorsDistinct | seed_data_baghdad_vendors.py:169-185 | the seeder's own table yields pairwise distinct vendor names, each vendor in one of the twelve neighbourhoods |
| OrderSeeding.Choose | seed_data_baghdad_vendors.py:199-202 | `random.choice` fails exactly on an empty list, otherwise returns a member, the one at the drawn position |
| OrderSeeding.DropoffChoices | seed_data_baghdad_vendors.py:216-218 | the dropoff candidates are exactly the areas other than the pickup area, and there is at least one |
| OrderSeeding.Dropoff | seed_data_baghdad_vendors.py:216-218 | the redraw loop's result is a listed area different from the pickup area |
| OrderSeeding.DropoffReachesEvery | seed_data_baghdad_vendors.py:216-218 | every area other than the pickup area is a possible outcome of the redraw loop |
| OrderSeeding.DropoffLoopEnds | seed_data_baghdad_vendors.py:28-32 | whatever the pickup area, some neighbourhood differs from it, so the redraw loop can end |
| OrderSeeding.SeededDropoff | seed_data_baghdad_vendors.py:216-218 | over the twelve neighbourhoods, the dropoff is a neighbourhood different from the pickup, for any pickup |
| OrderSeeding.DeliveryMinutes | seed_data_baghdad_vendors.py:221 | delivery minutes are never below 10, and at most 79 for draws inside their ranges |
| OrderSeeding.Distance | seed_data_baghdad_vendors.py:220 | the rounded distance is a whole number of hundredths within [0.8, 10.0] |
| OrderSeeding.Subtotal | seed_data_baghdad_vendors.py:223 | the rounded subtotal is a whole number of cents within [4.0, 30.0] |
| OrderSeeding.DeliveryFee | seed_data_baghdad_vendors.py:224 | the fee is at least 1.0, and at most 8.0 for a distance up to 10 km and a factor up to 0.8 |
| OrderSeeding.Tip | seed_data_baghdad_vendors.py:225 | the tip is never negative, whatever the Gaussian draw |
| OrderSeeding.DrawnStatus | seed_data_baghdad_vendors.py:227 | the drawn status is one of delivered, canceled, returned |
| OrderSeeding.DriverRating | seed_data_baghdad_vendors.py:228 | a rating is present exactly for delivered orders, and then lies in [1.0, 5.0] |
| OrderSeeding.BuildOrder | seed_data_baghdad_vendors.py:202-233 | the row carries the chosen customer, driver and vendor, takes pickup area and category from the vendor, is placed within the 120-day window, and meets every field bound |
| OrderSeeding.OrderFor | seed_data_baghdad_vendors.py:198-233 | one loop iteration yields an order whose customer, driver and vendor come from the listed ids and vendor rows |
| OrderSeeding.GenerateOrders | seed_data_baghdad_vendors.py:198-233 | the loop fails exactly when it draws from an empty list; otherwise it produces one seeded order per draw |
| OrderSeeding.SeededAreasAreNeighbourhoods | seed_data_baghdad_vendors.py:190-218 | with the seeder's vendor rows, pickup and dropoff are both neighbourhoods and always differ |
| Money.Round2 | seed_data_baghdad_vendors.py:220 | rounding to two decimals yields a whole number of cents within half a cent of the input |
| Money.Round2Monotone | seed_data_baghdad_vendors.py:224 | rounding to two decimals preserves order |
| Money.Round2Within | seed_data_baghdad_vendors.py:220 | rounding a value inside a range with whole-cent bounds stays inside the range |
| Money.Trunc | seed_data_baghdad_vendors.py:221 | `int()` truncates toward zero |
| Kpis.DeliveredOnly | analysis.py:44 | the delivered table keeps exactly the delivered orders, each as often as in the input, and its length is the delivered count |
| Kpis.SeededRevenue | analysis.py:45 | `Revenue`, the column `subtotal + delivery_fee + tip`, is at least 5 for every seeded order |
| Kpis.Rate | analysis.py:63-64 | a guarded rate is 0 for an empty denominator, otherwise numerator over denominator; it lies in [0, 1] when the numerator is at most the denominator |
| Kpis.RatePositive | analysis.py:63-64 | a guarded rate is positive exactly when both numerator and denominator are |
| Kpis.RateMonotone | analysis.py:63-64 | a larger numerator never gives a smaller rate |
| Kpis.SlaRate | analysis.py:78 | the SLA fraction lies in [0, 1], is 0 with no delivered orders, and otherwise times the order count equals the number of orders within the threshold |
| Kpis.SlaMonotone | analysis.py:77-78 | a looser SLA threshold never gives a smaller fraction |
| Kpis.SlaExtremes | analysis.py:78 | the SLA fraction is 1 when every order meets the threshold and 0 when none does |
| Kpis.SlaRates | analysis.py:77-78 | the SLA fractions for 25, 30, 35, 40 minutes, in order, non-decreasing |
| Kpis.GuardedMean | analysis.py:65 | a guarded rounded mean is 0 on an empty table, otherwise within half a cent of the true mean |
| Kpis.Global | analysis.py:59-78 | the global block: total, delivered, canceled and returned counts, each a `StatusCount` of its status (lines 59-62); cancel and return rates as guarded fractions in [0, 1]; averages and revenue within half a cent of the exact figures, and 0 with no deliveries; the SLA fractions of the delivered orders |
| Kpis.StatusPartition | analysis.py:59-62 | when every status is one of the three, delivered + canceled + returned equals the total |
| Kpis.GlobalOfSeeded | analysis.py:59-69 | on seeded orders the counts add up to the total, average minutes lie in [10, 79], average distance in [0.8, 10], and the average order value is at least 5 |
| Kpis.IsWeekendIff | analysis.py:39-42 | `IsWeekend`, the flag at line 42, holds exactly when the order falls on Friday, Saturday or Sunday; the flag repeats every seven days |
| AreaAnalysis.AreaRow | analysis.py:119-124 | an area row counts the delivered orders to that dropoff area, averages their minutes, takes the fraction within 30 minutes, and sums their revenue |
| AreaAnalysis.DropoffAreas | analysis.py:119 | the group keys are exactly the dropoff areas that occur, each once |
| AreaAnalysis.AreaKpis | analysis.py:119-125 | one row per dropoff area that occurs, no area twice, each row its area's aggregates with a positive count, sorted by order count, largest first |
| CustomerBehavior.Customers | analysis.py:211-216 | the customer table has one row per customer with a delivered order, none twice |
| CustomerBehavior.RepeatRate | analysis.py:219 | the repeat rate lies in [0, 1] and is 0 with no delivered orders |
| CustomerBehavior.RepeatRateAsSets | analysis.py:211-219 | the repeat rate is the number of customers with two or more delivered orders over the number of customers with any |
| CustomerBehavior.RepeatRatePositive | analysis.py:211-219 | the repeat rate is positive exactly when two delivered orders share a customer |
| VendorAreas.JoinVendors | analysis.py:46 | the left merge keeps every delivered order in place and attaches the vendor row exactly when the vendor id is known |
| VendorAreas.VendorAreasOf | analysis.py:261 | the vendor-area group keys are exactly the areas of matched vendors, each once |
| VendorAreas.PeakHour | analysis.py:261-264 | an area's peak hour has a positive count equal to its (area, hour) group size, no hour has more, and it is the earliest hour with that count |
| VendorAreas.PeakHourPerArea | analysis.py:261-264 | one row per vendor area that occurs, no area twice, each row holding that area's peak hour |
| VendorAreas.VendorNamesIn | analysis.py:272 | an area's vendor-name group keys are exactly the names sold in that area, each once |
| VendorAreas.TopVendorsInArea | analysis.py:272-275 | at most three rows, sorted by orders, distinct vendors, each with its group count; any vendor left out has no more orders than the third row; non-empty when the area occurs |
| VendorAreas.Top3PerArea | analysis.py:272-275 | every area has at most three rows, and an area has rows exactly when it occurs; the rows of each occurring area are exactly its top-vendor block, in the block's order |

## Left out

- Database I/O is not modelled: the connection, inserts, commits and `SELECT`s. Rows are passed in as sequences.
- Faker names and dates, and the driver and customer tables with their draws (seed_data_baghdad_vendors.py:142-160), are not modelled. The order model takes their ids as inputs.
- Vendor ratings are draws passed to `VendorNaming.BuildVendorRows`. Vendor join dates are left out.
- Distributions and weights are not modelled: the hour weights, the 92/6/2 status weights and the Gaussian parameters. Only each draw's range is kept. Gaussian draws are unrestricted.
- The day of `datetime.now() - timedelta(days=120)` is the parameter `baseDay`, so orders fall on days `baseDay` to `baseDay + 119`, the 120 days before the run. Date arithmetic is a day count. The date, ISO week and month columns are not modelled.
- Floating point is not modelled. Values are exact reals, so binary representation errors in `round` and in the means are absent.
- The p95 columns are not modelled, both the global one and the area one; quantile interpolation is left out.
- The time series, the vendor, cuisine and driver analyses, the distance fit and the residual outliers are not part of this model.
- Charts, CSV files and printing are left out. Only the numbers are modelled.
- The display steps at analysis.py:126-129 are left out: `sla30` becomes a percentage string, and `avg_minutes`, `p95_minutes` and `revenue` are rounded to two decimals. `AreaAnalysis.AreaRow` keeps the unrounded mean and sum.
- The customers merge at analysis.py:217 is left out. It adds `customer_name`, `city` and `signup_date` to each row, but not rows, so the repeat rate does not depend on it.
- Kpis.Global: each averaged or summed figure is stated to be within half a cent of the exact figure, not equal to `Round2` of it.
- AreaAnalysis.AreaKpis: the order among areas with equal counts is not stated, because pandas' default sort is not stable.
- VendorAreas.PeakHourPerArea: the rows come in first-appearance order of the area, not sorted by area name.
- VendorAreas.Top3PerArea: the rows come in first-appearance order of the area, not sorted by area name.
- VendorAreas.TopVendorsInArea: the tie order by vendor name is not stated. Among vendors with equal counts, the set that makes the top three is only bounded by the third row's count.

=== FILE: area_analysis.dfy ===
/** The dropoff-area table: delivered orders grouped by dropoff area, one row per
    area with its order count, mean minutes, 30-minute SLA fraction and revenue,
    ordered by order count, largest first. */
module AreaAnalysis {
  import opened Seqs
  import opened Records
  import opened Kpis

  /** One row of the area table (the p95 column is not modelled). */
  datatype AreaKpi = AreaKpi(area: string, orders: nat, avgMinutes: real, sla30: real, revenue: real)

  /** The group key test `dropoff_area == area`. */
  function DropoffIs(area: string): Order -> bool {
    (o: Order) => o.dropoffArea == area
  }

  function DropoffOf(o: Order): string {
    o.dropoffArea
  }

  /** The aggregates of one dropoff area's group. */
  function AreaRow(deliv: seq<Order>, area: string): (row: AreaKpi)
    ensures row.area == area
    ensures row.orders == Count(deliv, DropoffIs(area))
    ensures 0.0 <= row.sla30 <= 1.0
    ensures row.sla30 == Rate(Count(deliv, Both(DropoffIs(area), MinutesWithin(30))), row.orders)
    ensures row.orders > 0 ==> row.avgMinutes == Sum(deliv, Masked(DropoffIs(area), Minutes)) / row.orders as real
    ensures row.revenue == Sum(deliv, Masked(DropoffIs(area), Revenue))
  {
    var g := Filter(deliv, DropoffIs(area));
    CountFilter(deliv, DropoffIs(area), MinutesWithin(30));
    SumFilter(deliv, DropoffIs(area), Minutes);
    SumFilter(deliv, DropoffIs(area), Revenue);
    AreaKpi(area, |g|, Mean(g, Minutes), SlaRate(g, 30), Sum(g, Revenue))
  }

  function RowOf(deliv: seq<Order>): string -> AreaKpi {
    (a: string) => AreaRow(deliv, a)
  }

  function OrdersOf(r: AreaKpi): int {
    r.orders
  }

  /** Some order goes to this area. */
  predicate HasDropoff(deliv: seq<Order>, area: string) {
    exists j :: 0 <= j < |deliv| && deliv[j].dropoffArea == area
  }

  function AreaOf(r: AreaKpi): string {
    r.area
  }

  /** The dropoff areas that occur among the orders, each once. */
  function DropoffAreas(deliv: seq<Order>): (areas: seq<string>)
    ensures NoDup(areas)
    ensures forall a :: a in areas <==> HasDropoff(deliv, a)
  {
    var all := Map(deliv, DropoffOf);
    assert forall j :: 0 <= j < |deliv| ==> all[j] == deliv[j].dropoffArea;
    Distinct(all)
  }

  /** `deliv.groupby("dropoff_area").agg(...).sort_values("orders", ascending=False)`. */
  function AreaKpis(deliv: seq<Order>): (rows: seq<AreaKpi>)
    ensures SortedDesc(rows, OrdersOf)
    ensures forall a :: a in Map(rows, AreaOf) <==> HasDropoff(deliv, a)
    ensures forall i, j :: 0 <= i < j < |rows| ==> rows[i].area != rows[j].area
    ensures forall i :: 0 <= i < |rows| ==> rows[i] == AreaRow(deliv, rows[i].area) && rows[i].orders > 0
  {
    var areas := DropoffAreas(deliv);
    var unsorted := Map(areas, RowOf(deliv));
    var rows := SortDesc(unsorted, OrdersOf);
    AreaRowsFacts(deliv, areas, unsorted, rows);
    rows
  }

  lemma AreaRowsFacts(deliv: seq<Order>, areas: seq<string>, unsorted: seq<AreaKpi>, rows: seq<AreaKpi>)
    requires NoDup(areas)
    requires forall a :: a in areas <==> HasDropoff(deliv, a)
    requires |unsorted| == |areas| && forall i :: 0 <= i < |areas| ==> unsorted[i] == AreaRow(deliv, areas[i])
    requires multiset(rows) == multiset(unsorted)
    ensures forall a :: a in Map(rows, AreaOf) <==> HasDropoff(deliv, a)
    ensures forall i, j :: 0 <= i < j < |rows| ==> rows[i].area != rows[j].area
    ensures forall i :: 0 <= i < |rows| ==> rows[i] == AreaRow(deliv, rows[i].area) && rows[i].orders > 0
  {
    RowsFromAreas(deliv, areas, unsorted, rows);
    RowsDistinct(areas, unsorted, rows);
    forall a | HasDropoff(deliv, a)
      ensures a in Map(rows, AreaOf)
    {
      var k :| 0 <= k < |areas| && areas[k] == a;
      assert unsorted[k] in multiset(rows);
      var i :| 0 <= i < |rows| && rows[i] == unsorted[k];
      assert Map(rows, AreaOf)[i] == a;
    }
  }

  /** Every sorted row is the row of one of the areas it was built from. */
  lemma RowsFromAreas(deliv: seq<Order>, areas: seq<string>, unsorted: seq<AreaKpi>, rows: seq<AreaKpi>)
    requires forall a :: a in areas <==> HasDropoff(deliv, a)
    requires |unsorted| == |areas| && forall i :: 0 <= i < |areas| ==> unsorted[i] == AreaRow(deliv, areas[i])
    requires multiset(rows) == multiset(unsorted)
    ensures forall i :: 0 <= i < |rows| ==> rows[i] == AreaRow(deliv, rows[i].area) && rows[i].orders > 0
    ensures forall a :: a in Map(rows, AreaOf) ==> HasDropoff(deliv, a)
  {
    forall i | 0 <= i < |rows|
      ensures rows[i] == AreaRow(deliv, rows[i].area) && rows[i].orders > 0
      ensures HasDropoff(deliv, rows[i].area)
    {
      assert rows[i] in multiset(unsorted);
      var k :| 0 <= k < |unsorted| && unsorted[k] == rows[i];
      assert areas[k] in areas;
      var j :| 0 <= j < |deliv| && deliv[j].dropoffArea == areas[k];
      CountPositive(deliv, DropoffIs(areas[k]));
    }
  }

  /** Rows built from distinct areas keep distinct areas through the sort. */
  lemma RowsDistinct(areas: seq<string>, unsorted: seq<AreaKpi>, rows: seq<AreaKpi>)
    requires NoDup(areas)
    requires |unsorted| == |areas| && forall i :: 0 <= i < |areas| ==> unsorted[i].area == areas[i]
    requires multiset(rows) == multiset(unsorted)
    requires forall i, j :: 0 <= i < |rows| && 0 <= j < |rows| && rows[i].area == rows[j].area ==> rows[i] == rows[j]
    ensures forall i, j :: 0 <= i < j < |rows| ==> rows[i].area != rows[j].area
  {
    assert NoDup(unsorted) by {
      forall i, j | 0 <= i < j < |unsorted|
        ensures unsorted[i] != unsorted[j]
      {
        assert unsorted[i].area == areas[i] && unsorted[j].area == areas[j];
      }
    }
    NoDupPermutation(unsorted, rows);
  }
}

=== FILE: baghdad.dfy ===
/** The seeder's fixed tables: the Baghdad neighbourhoods and, per neighbourhood,
    the restaurant brands pinned to it with their cuisine labels. The table is an
    ordered list of (area, brands) pairs, in the order Python's dict iterates
    `AREA_VENDORS` (insertion order). */
module Baghdad {
  import opened Seqs

  /** A restaurant brand and its cuisine label. */
  datatype Brand = Brand(name: string, cuisine: string)

  /** The neighbourhoods orders are delivered to (the airport is excluded). */
  const Areas: seq<string> := [
    "Mansour",
    "Karada",
    "Adhamiyah",
    "Kadhimiya",
    "Jadriyah",
    "Zayouna",
    "Palestine Street",
    "Dora",
    "Sadr City",
    "Yarmouk",
    "Bab Al Sharqi",
    "Karradat Mariam"
  ]

  const MansourBrands: seq<Brand> := [
    Brand("Route 99", "Burger"),
    Brand("Pizza Roma", "Pizza"),
    Brand("Samad Baghdad", "Iraqi"),
    Brand("Cinnabon", "Dessert"),
    Brand("Texas Chicken", "Fried Chicken"),
    Brand("DipnDip", "Dessert"),
    Brand("Kabab Al Baghdadi", "Kebab")
  ]

  const KaradaBrands: seq<Brand> := [
    Brand("Shawarma Al Reem", "Shawarma"),
    Brand("Pizza Hut", "Pizza"),
    Brand("Saj Al Reef", "Iraqi"),
    Brand("MADO Café", "Dessert"),
    Brand("Johnny Rockets", "Burger"),
    Brand("KFC", "Fried Chicken"),
    Brand("Masgouf House", "BBQ")
  ]

  const AdhamiyahBrands: seq<Brand> := [
    Brand("Shawarma Time", "Shawarma"),
    Brand("Little Italy Pizza", "Pizza"),
    Brand("Al Samadi Sweets", "Dessert"),
    Brand("Al Baghdadi Restaurant", "Iraqi"),
    Brand("Crunchy Bite", "Fried Chicken"),
    Brand("Wok Station", "Sushi")
  ]

  const KadhimiyaBrands: seq<Brand> := [
    Brand("Kabab Abu Ali", "Kebab"),
    Brand("Dough House", "Pizza"),
    Brand("Blue Wave", "Seafood"),
    Brand("Sushi House", "Sushi"),
    Brand("Al Reef Grill", "BBQ"),
    Brand("Café La Roche", "Cafe")
  ]

  const JadriyahBrands: seq<Brand> := [
    Brand("Route 99", "Burger"),
    Brand("Cinnabon", "Dessert"),
    Brand("Pizza Roma", "Pizza"),
    Brand("Saj Al Reef", "Iraqi"),
    Brand("Shawarma Al Reem", "Shawarma"),
    Brand("Khan Murjan", "Iraqi")
  ]

  const ZayounaBrands: seq<Brand> := [
    Brand("Shawarma Time", "Shawarma"),
    Brand("Domino's Pizza", "Pizza"),
    Brand("Texas Chicken", "Fried Chicken"),
    Brand("DipnDip", "Dessert"),
    Brand("Istanbul Shawarma", "Turkish"),
    Brand("Ocean Fish", "Seafood")
  ]

  const PalestineStreetBrands: seq<Brand> := [
    Brand("Shawarma Palace", "Shawarma"),
    Brand("Little Italy Pizza", "Pizza"),
    Brand("Big Bite", "Burger"),
    Brand("Kabab Al Baghdadi", "Kebab"),
    Brand("Sushi House", "Sushi"),
    Brand("Cinnabon", "Dessert")
  ]

  const DoraBrands: seq<Brand> := [
    Brand("Chicken Time", "Fried Chicken"),
    Brand("Pizza Hut", "Pizza"),
    Brand("Al Baghdadi Restaurant", "Iraqi"),
    Brand("BBQ Nation", "BBQ"),
    Brand("Blue Wave", "Seafood")
  ]

  const SadrCityBrands: seq<Brand> := [
    Brand("Shawarma Time", "Shawarma"),
    Brand("Kabab Abu Ali", "Kebab"),
    Brand("Route 99", "Burger"),
    Brand("Dough House", "Pizza"),
    Brand("KFC", "Fried Chicken")
  ]

  const YarmoukBrands: seq<Brand> := [
    Brand("Johnny Rockets", "Burger"),
    Brand("Pizza Roma", "Pizza"),
    Brand("Saj Al Reef", "Iraqi"),
    Brand("Al Samadi Sweets", "Dessert"),
    Brand("Wok Station", "Sushi")
  ]

  const BabAlSharqiBrands: seq<Brand> := [
    Brand("Shawarma Palace", "Shawarma"),
    Brand("Slice & Bake", "Pizza"),
    Brand("Khan Murjan", "Iraqi"),
    Brand("DipnDip", "Dessert"),
    Brand("Ocean Fish", "Seafood")
  ]

  const KarradatMariamBrands: seq<Brand> := [
    Brand("MADO Café", "Dessert"),
    Brand("Istanbul Shawarma", "Turkish"),
    Brand("Al Reef Grill", "BBQ"),
    Brand("Little Italy Pizza", "Pizza"),
    Brand("Big Bite", "Burger")
  ]

  /** Brands per area, in the order the seeder visits them. */
  const AreaVendors: seq<(string, seq<Brand>)> := [
    ("Mansour", MansourBrands),
    ("Karada", KaradaBrands),
    ("Adhamiyah", AdhamiyahBrands),
    ("Kadhimiya", KadhimiyaBrands),
    ("Jadriyah", JadriyahBrands),
    ("Zayouna", ZayounaBrands),
    ("Palestine Street", PalestineStreetBrands),
    ("Dora", DoraBrands),
    ("Sadr City", SadrCityBrands),
    ("Yarmouk", YarmoukBrands),
    ("Bab Al Sharqi", BabAlSharqiBrands),
    ("Karradat Mariam", KarradatMariamBrands)
  ]

  /** The area keys of a table, in order. */
  function Keys(t: seq<(string, seq<Brand>)>): (ks: seq<string>)
    ensures |ks| == |t|
    ensures forall k :: 0 <= k < |t| ==> ks[k] == t[k].0
  {
    seq(|t|, k requires 0 <= k < |t| => t[k].0)
  }

  /** No brand name occurs twice in one area's list. */
  predicate DistinctBrands(bs: seq<Brand>) {
    forall i, j :: 0 <= i < j < |bs| ==> bs[i].name != bs[j].name
  }

  /** No brand name contains '-', the character of the " - <area>" suffix. */
  predicate DashFree(bs: seq<Brand>) {
    forall i :: 0 <= i < |bs| ==> '-' !in bs[i].name
  }

  /** What vendor-name uniqueness needs of a table: distinct area keys, no brand
      repeated inside one area, and no '-' in a brand name. */
  predicate WellFormedTable(t: seq<(string, seq<Brand>)>) {
    && NoDup(Keys(t))
    && forall k :: 0 <= k < |t| ==> DistinctBrands(t[k].1) && DashFree(t[k].1)
  }

  // Index-recursive forms of the checks above. On a literal table Dafny evaluates
  // them directly; the lemmas after them turn them into the quantified forms.

  predicate NameAbsentFrom(bs: seq<Brand>, n: string, k: nat)
    decreases |bs| - k
  {
    k >= |bs| || (bs[k].name != n && NameAbsentFrom(bs, n, k + 1))
  }

  predicate BrandsDistinctFrom(bs: seq<Brand>, i: nat)
    decreases |bs| - i
  {
    i >= |bs| || (NameAbsentFrom(bs, bs[i].name, i + 1) && BrandsDistinctFrom(bs, i + 1))
  }

  predicate DashFreeFrom(bs: seq<Brand>, i: nat)
    decreases |bs| - i
  {
    i >= |bs| || ('-' !in bs[i].name && DashFreeFrom(bs, i + 1))
  }

  predicate StringsDistinctFrom(s: seq<string>, i: nat)
    decreases |s| - i
  {
    i >= |s| || (s[i] !in s[i + 1..] && StringsDistinctFrom(s, i + 1))
  }

  lemma {:induction false} NameAbsentFromMeans(bs: seq<Brand>, n: string, k: nat)
    requires NameAbsentFrom(bs, n, k)
    ensures forall j :: k <= j < |bs| ==> bs[j].name != n
    decreases |bs| - k
  {
    if k < |bs| {
      NameAbsentFromMeans(bs, n, k + 1);
    }
  }

  lemma {:induction false} BrandsDistinctFromMeans(bs: seq<Brand>, i: nat)
    requires BrandsDistinctFrom(bs, i)
    ensures forall a, b :: i <= a < b < |bs| ==> bs[a].name != bs[b].name
    decreases |bs| - i
  {
    if i < |bs| {
      NameAbsentFromMeans(bs, bs[i].name, i + 1);
      BrandsDistinctFromMeans(bs, i + 1);
    }
  }

  lemma {:induction false} DashFreeFromMeans(bs: seq<Brand>, i: nat)
    requires DashFreeFrom(bs, i)
    ensures forall j :: i <= j < |bs| ==> '-' !in bs[j].name
    decreases |bs| - i
  {
    if i < |bs| {
      DashFreeFromMeans(bs, i + 1);
    }
  }

  lemma {:induction false} StringsDistinctFromMeans(s: seq<string>, i: nat)
    requires StringsDistinctFrom(s, i)
    ensures forall a, b :: i <= a < b < |s| ==> s[a] != s[b]
    decreases |s| - i
  {
    if i < |s| {
      assert forall b :: i < b < |s| ==> s[b] in s[i + 1..] by {
        forall b | i < b < |s| ensures s[b] in s[i + 1..] {
          assert s[i + 1..][b - i - 1] == s[b];
        }
      }
      StringsDistinctFromMeans(s, i + 1);
    }
  }

  /** One area's list passes both checks. */
  lemma ListChecked(bs: seq<Brand>)
    requires BrandsDistinctFrom(bs, 0) && DashFreeFrom(bs, 0)
    ensures DistinctBrands(bs) && DashFree(bs)
  {
    BrandsDistinctFromMeans(bs, 0);
    DashFreeFromMeans(bs, 0);
  }

  // The literal checks, one list and one property per lemma to keep each proof small.

  lemma MansourBrandsDistinct() ensures BrandsDistinctFrom(MansourBrands, 0) {}
  lemma MansourBrandsDashFree6() ensures DashFreeFrom(MansourBrands, 6) {}
  lemma MansourBrandsDashFree4() ensures DashFreeFrom(MansourBrands, 4) { MansourBrandsDashFree6(); }
  lemma MansourBrandsDashFree2() ensures DashFreeFrom(MansourBrands, 2) { MansourBrandsDashFree4(); }
  lemma MansourBrandsDashFree() ensures DashFreeFrom(MansourBrands, 0) { MansourBrandsDashFree2(); }
  lemma KaradaBrandsDistinct() ensures BrandsDistinctFrom(KaradaBrands, 0) {}
  lemma KaradaBrandsDashFree6() ensures DashFreeFrom(KaradaBrands, 6) {}
  lemma KaradaBrandsDashFree4() ensures DashFreeFrom(KaradaBrands, 4) { KaradaBrandsDashFree6(); }
  lemma KaradaBrandsDashFree2() ensures DashFreeFrom(KaradaBrands, 2) { KaradaBrandsDashFree4(); }
  lemma KaradaBrandsDashFree() ensures DashFreeFrom(KaradaBrands, 0) { KaradaBrandsDashFree2(); }
  lemma AdhamiyahBrandsDistinct() ensures BrandsDistinctFrom(AdhamiyahBrands, 0) {}
  lemma AdhamiyahBrandsDashFree4() ensures DashFreeFrom(AdhamiyahBrands, 4) {}
  lemma AdhamiyahBrandsDashFree2() ensures DashFreeFrom(AdhamiyahBrands, 2) { AdhamiyahBrandsDashFree4(); }
  lemma AdhamiyahBrandsDashFree() ensures DashFreeFrom(AdhamiyahBrands, 0) { AdhamiyahBrandsDashFree2(); }
  lemma KadhimiyaBrandsDistinct() ensures BrandsDistinctFrom(KadhimiyaBrands, 0) {}
  lemma KadhimiyaBrandsDashFree4() ensures DashFreeFrom(KadhimiyaBrands, 4) {}
  lemma KadhimiyaBrandsDashFree2() ensures DashFreeFrom(KadhimiyaBrands, 2) { KadhimiyaBrandsDashFree4(); }
  lemma KadhimiyaBrandsDashFree() ensures DashFreeFrom(KadhimiyaBrands, 0) { KadhimiyaBrandsDashFree2(); }
  lemma JadriyahBrandsDistinct() ensures BrandsDistinctFrom(JadriyahBrands, 0) {}
  lemma JadriyahBrandsDashFree4() ensures DashFreeFrom(JadriyahBrands, 4) {}
  lemma JadriyahBrandsDashFree2() ensures DashFreeFrom(JadriyahBrands, 2) { JadriyahBrandsDashFree4(); }
  lemma JadriyahBrandsDashFree() ensures DashFreeFrom(JadriyahBrands, 0) { JadriyahBrandsDashFree2(); }
  lemma ZayounaBrandsDistinct() ensures BrandsDistinctFrom(ZayounaBrands, 0) {}
  lemma ZayounaBrandsDashFree4() ensures DashFreeFrom(ZayounaBrands, 4) {}
  lemma ZayounaBrandsDashFree2() ensures DashFreeFrom(ZayounaBrands, 2) { ZayounaBrandsDashFree4(); }
  lemma ZayounaBrandsDashFree() ensures DashFreeFrom(ZayounaBrands, 0) { ZayounaBrandsDashFree2(); }
  lemma PalestineStreetBrandsDistinct() ensures BrandsDistinctFrom(PalestineStreetBrands, 0) {}
  lemma PalestineStreetBrandsDashFree4() ensures DashFreeFrom(PalestineStreetBrands, 4) {}
  lemma PalestineStreetBrandsDashFree2() ensures DashFreeFrom(PalestineStreetBrands, 2) { PalestineStreetBrandsDashFree4(); }
  lemma PalestineStreetBrandsDashFree() ensures DashFreeFrom(PalestineStreetBrands, 0) { PalestineStreetBrandsDashFree2(); }
  lemma DoraBrandsDistinct() ensures BrandsDistinctFrom(DoraBrands, 0) {}
  lemma DoraBrandsDashFree4() ensures DashFreeFrom(DoraBrands, 4) {}
  lemma DoraBrandsDashFree2() ensures DashFreeFrom(DoraBrands, 2) { DoraBrandsDashFree4(); }
  lemma DoraBrandsDashFree() ensures DashFreeFrom(DoraBrands, 0) { DoraBrandsDashFree2(); }
  lemma SadrCityBrandsDistinct() ensures BrandsDistinctFrom(SadrCityBrands, 0) {}
  lemma SadrCityBrandsDashFree4() ensures DashFreeFrom(SadrCityBrands, 4) {}
  lemma SadrCityBrandsDashFree2() ensures DashFreeFrom(SadrCityBrands, 2) { SadrCityBrandsDashFree4(); }
  lemma SadrCityBrandsDashFree() ensures DashFreeFrom(SadrCityBrands, 0) { SadrCityBrandsDashFree2(); }
  lemma YarmoukBrandsDistinct() ensures BrandsDistinctFrom(YarmoukBrands, 0) {}
  lemma YarmoukBrandsDashFree4() ensures DashFreeFrom(YarmoukBrands, 4) {}
  lemma YarmoukBrandsDashFree2() ensures DashFreeFrom(YarmoukBrands, 2) { YarmoukBrandsDashFree4(); }
  lemma YarmoukBrandsDashFree() ensures DashFreeFrom(YarmoukBrands, 0) { YarmoukBrandsDashFree2(); }
  lemma BabAlSharqiBrandsDistinct() ensures BrandsDistinctFrom(BabAlSharqiBrands, 0) {}
  lemma BabAlSharqiBrandsDashFree4() ensures DashFreeFrom(BabAlSharqiBrands, 4) {}
  lemma BabAlSharqiBrandsDashFree2() ensures DashFreeFrom(BabAlSharqiBrands, 2) { BabAlSharqiBrandsDashFree4(); }
  lemma BabAlSharqiBrandsDashFree() ensures DashFreeFrom(BabAlSharqiBrands, 0) { BabAlSharqiBrandsDashFree2(); }
  lemma KarradatMariamBrandsDistinct() ensures BrandsDistinctFrom(KarradatMariamBrands, 0) {}
  lemma KarradatMariamBrandsDashFree4() ensures DashFreeFrom(KarradatMariamBrands, 4) {}
  lemma KarradatMariamBrandsDashFree2() ensures DashFreeFrom(KarradatMariamBrands, 2) { KarradatMariamBrandsDashFree4(); }
  lemma KarradatMariamBrandsDashFree() ensures DashFreeFrom(KarradatMariamBrands, 0) { KarradatMariamBrandsDashFree2(); }
  lemma AreasChecked10() ensures StringsDistinctFrom(Areas, 10) {}
  lemma AreasChecked8() ensures StringsDistinctFrom(Areas, 8) { AreasChecked10(); }
  lemma AreasChecked6() ensures StringsDistinctFrom(Areas, 6) { AreasChecked8(); }
  lemma AreasChecked4() ensures StringsDistinctFrom(Areas, 4) { AreasChecked6(); }
  lemma AreasChecked2() ensures StringsDistinctFrom(Areas, 2) { AreasChecked4(); }
  lemma AreasChecked() ensures StringsDistinctFrom(Areas, 0) { AreasChecked2(); }

  /** The first six areas' brand lists pass both checks. */
  lemma BrandListsCheckedHead()
    ensures forall k :: 0 <= k < 6 ==> DistinctBrands(AreaVendors[k].1) && DashFree(AreaVendors[k].1)
  {
    MansourBrandsDistinct(); MansourBrandsDashFree(); ListChecked(MansourBrands);
    KaradaBrandsDistinct(); KaradaBrandsDashFree(); ListChecked(KaradaBrands);
    AdhamiyahBrandsDistinct(); AdhamiyahBrandsDashFree(); ListChecked(AdhamiyahBrands);
    KadhimiyaBrandsDistinct(); KadhimiyaBrandsDashFree(); ListChecked(KadhimiyaBrands);
    JadriyahBrandsDistinct(); JadriyahBrandsDashFree(); ListChecked(JadriyahBrands);
    ZayounaBrandsDistinct(); ZayounaBrandsDashFree(); ListChecked(ZayounaBrands);
  }

  /** The last six areas' brand lists pass both checks. */
  lemma BrandListsCheckedTail()
    ensures forall k :: 6 <= k < 12 ==> DistinctBrands(AreaVendors[k].1) && DashFree(AreaVendors[k].1)
  {
    PalestineStreetBrandsDistinct(); PalestineStreetBrandsDashFree(); ListChecked(PalestineStreetBrands);
    DoraBrandsDistinct(); DoraBrandsDashFree(); ListChecked(DoraBrands);
    SadrCityBrandsDistinct(); SadrCityBrandsDashFree(); ListChecked(SadrCityBrands);
    YarmoukBrandsDistinct(); YarmoukBrandsDashFree(); ListChecked(YarmoukBrands);
    BabAlSharqiBrandsDistinct(); BabAlSharqiBrandsDashFree(); ListChecked(BabAlSharqiBrands);
    KarradatMariamBrandsDistinct(); KarradatMariamBrandsDashFree(); ListChecked(KarradatMariamBrands);
  }

  /** Every area's brand list passes both checks. */
  lemma BrandListsChecked()
    ensures forall k :: 0 <= k < |AreaVendors| ==> DistinctBrands(AreaVendors[k].1) && DashFree(AreaVendors[k].1)
  {
    BrandListsCheckedHead();
    BrandListsCheckedTail();
  }

  /** The table's keys are exactly the neighbourhood list, in the same order, and
      the neighbourhoods are distinct. */
  lemma KeysAreAreas()
    ensures Keys(AreaVendors) == Areas
    ensures NoDup(Areas)
  {
    AreasChecked();
    StringsDistinctFromMeans(Areas, 0);
  }

  /** The seeder's table meets the vendor-name uniqueness conditions. */
  lemma TableWellFormed()
    ensures WellFormedTable(AreaVendors)
  {
    BrandListsChecked();
    KeysAreAreas();
  }
}

=== FILE: customer_behavior.dfy ===
/** The customer table of delivered orders and its repeat rate: the share of
    customers with at least two delivered orders, 0 when there are none. */
module CustomerBehavior {
  import opened Seqs
  import opened Records
  import opened Kpis

  function CustomerOf(o: Order): int {
    o.customerId
  }

  /** The group key test `customer_id == c`. */
  function ByCustomer(c: int): Order -> bool {
    (o: Order) => o.customerId == c
  }

  /** The `orders` column of customer `c`'s row. */
  function OrdersOfCustomer(deliv: seq<Order>, c: int): nat {
    Count(deliv, ByCustomer(c))
  }

  /** The row test `orders >= 2`. */
  function IsRepeat(deliv: seq<Order>): int -> bool {
    (c: int) => OrdersOfCustomer(deliv, c) >= 2
  }

  /** The customers of `deliv.groupby("customer_id")`, one per group. */
  function Customers(deliv: seq<Order>): (cs: seq<int>)
    ensures NoDup(cs)
    ensures forall c :: c in cs <==> c in CustomerSet(deliv)
  {
    var all := Map(deliv, CustomerOf);
    assert forall c :: c in all <==> c in CustomerSet(deliv) by {
      forall c
        ensures c in all <==> c in CustomerSet(deliv)
      {
        if c in all {
          var j :| 0 <= j < |all| && all[j] == c;
          assert deliv[j] in deliv;
        }
        if c in CustomerSet(deliv) {
          var o :| o in deliv && o.customerId == c;
          var j :| 0 <= j < |deliv| && deliv[j] == o;
          assert all[j] == c;
        }
      }
    }
    Distinct(all)
  }

  /** `(cust_orders["orders"] >= 2).mean() if len(cust_orders) else 0`. */
  function RepeatRate(deliv: seq<Order>): (r: real)
    ensures 0.0 <= r <= 1.0
    ensures |deliv| == 0 ==> r == 0.0
  {
    var cs := Customers(deliv);
    assert |deliv| == 0 ==> CustomerSet(deliv) == {};
    Rate(Count(cs, IsRepeat(deliv)), |cs|)
  }

  /** Every customer who has a delivered order. */
  function CustomerSet(deliv: seq<Order>): set<int> {
    set o | o in deliv :: o.customerId
  }

  /** The customers with at least two delivered orders. */
  function RepeatCustomerSet(deliv: seq<Order>): set<int> {
    Select(CustomerSet(deliv), IsRepeat(deliv))
  }

  /** The repeat rate is the number of repeat customers over the number of customers. */
  lemma RepeatRateAsSets(deliv: seq<Order>)
    ensures RepeatRate(deliv) == Rate(|RepeatCustomerSet(deliv)|, |CustomerSet(deliv)|)
  {
    var cs := Customers(deliv);
    CustomerCount(deliv);
    RepeatCount(deliv);
  }

  lemma CustomerCount(deliv: seq<Order>)
    ensures |Customers(deliv)| == |CustomerSet(deliv)|
  {
    var cs := Customers(deliv);
    DistinctCard(cs);
    assert SetOf(cs) == CustomerSet(deliv);
  }

  lemma RepeatCount(deliv: seq<Order>)
    ensures Count(Customers(deliv), IsRepeat(deliv)) == |RepeatCustomerSet(deliv)|
  {
    var cs := Customers(deliv);
    CountAsSet(cs, IsRepeat(deliv));
    assert SetOf(cs) == CustomerSet(deliv);
  }

  /** The repeat rate is positive exactly when two delivered orders share a customer. */
  lemma RepeatRatePositive(deliv: seq<Order>)
    ensures RepeatRate(deliv) > 0.0 <==>
      exists i, j :: 0 <= i < j < |deliv| && deliv[i].customerId == deliv[j].customerId
  {
    var cs := Customers(deliv);
    var n := Count(cs, IsRepeat(deliv));
    assert RepeatRate(deliv) == Rate(n, |cs|);
    if exists i, j :: 0 <= i < j < |deliv| && deliv[i].customerId == deliv[j].customerId {
      var i, j :| 0 <= i < j < |deliv| && deliv[i].customerId == deliv[j].customerId;
      SharedCustomerRepeats(deliv, i, j);
      RatePositive(n, |cs|);
    }
    if RepeatRate(deliv) > 0.0 {
      RatePositive(n, |cs|);
      CountPositive(cs, IsRepeat(deliv));
      var k :| 0 <= k < |cs| && IsRepeat(deliv)(cs[k]);
      CountTwoWitness(deliv, ByCustomer(cs[k]));
    }
  }

  /** Two orders of one customer make that customer a repeat customer. */
  lemma SharedCustomerRepeats(deliv: seq<Order>, i: int, j: int)
    requires 0 <= i < j < |deliv| && deliv[i].customerId == deliv[j].customerId
    ensures Count(Customers(deliv), IsRepeat(deliv)) > 0
  {
    var cs := Customers(deliv);
    var c := deliv[i].customerId;
    CountTwo(deliv, ByCustomer(c), i, j);
    assert c in CustomerSet(deliv);
    var k :| 0 <= k < |cs| && cs[k] == c;
    CountPositive(cs, IsRepeat(deliv));
  }
}

=== FILE: kpis.dfy ===
/** The analyzer's order-level KPIs: the delivered filter, revenue per order, the
    global counts and rates with their zero guards, the SLA fractions, and the
    weekend flag. Means and sums are exact reals; `round(x, 2)` is Money.Round2. */
module Kpis {
  import opened Seqs
  import opened Money
  import opened Records
  import opened OrderSeeding

  /** The row test `orders["status"] == status`. */
  function StatusIs(status: string): Order -> bool {
    (o: Order) => o.status == status
  }

  /** `(orders["status"] == status).sum()`. */
  function StatusCount(orders: seq<Order>, status: string): nat {
    Count(orders, StatusIs(status))
  }

  /** `orders[orders["status"] == "delivered"]`: the delivered rows, in their order. */
  function DeliveredOnly(orders: seq<Order>): (deliv: seq<Order>)
    ensures |deliv| == StatusCount(orders, Delivered)
    ensures forall i :: 0 <= i < |deliv| ==> deliv[i].status == Delivered
    ensures forall o: Order :: o in deliv <==> o in orders && o.status == Delivered
    ensures forall o: Order :: o.status == Delivered ==> multiset(deliv)[o] == multiset(orders)[o]
    ensures forall o: Order :: o.status != Delivered ==> multiset(deliv)[o] == 0
  {
    Filter(orders, StatusIs(Delivered))
  }

  /** The revenue column: `subtotal + delivery_fee + tip`. */
  function Revenue(o: Order): real {
    o.subtotal + o.deliveryFee + o.tip
  }

  /** A seeded order brings in at least 5: a subtotal of at least 4, a fee of at least 1
      and a tip that is never negative. */
  lemma SeededRevenue(o: Order)
    requires WellFormedOrder(o)
    ensures Revenue(o) >= 5.0
  {
  }

  /** The `delivery_minutes` column as a number. */
  function Minutes(o: Order): real {
    o.minutes as real
  }

  /** The `distance_km` column. */
  function DistanceKm(o: Order): real {
    o.distanceKm
  }

  /** `n / d if d else 0`: a count over a total, guarded against an empty total. */
  function Rate(n: nat, d: nat): (r: real)
    ensures d == 0 ==> r == 0.0
    ensures d > 0 ==> r * d as real == n as real
    ensures r >= 0.0
    ensures n <= d ==> r <= 1.0
  {
    if d == 0 then 0.0 else n as real / d as real
  }

  /** A larger count over the same total is a larger rate. */
  lemma RateMonotone(n1: nat, n2: nat, d: nat)
    requires n1 <= n2
    ensures Rate(n1, d) <= Rate(n2, d)
  {
    if d > 0 {
      DivMonotone(n1 as real, n2 as real, d as real);
    }
  }

  /** A rate over a non-empty total is positive exactly when its count is. */
  lemma RatePositive(n: nat, d: nat)
    ensures Rate(n, d) > 0.0 <==> n > 0 && d > 0
  {
    if n > 0 && d > 0 {
      DivMonotone(0.0, n as real, d as real);
      assert n as real / d as real != 0.0;
    }
  }

  lemma DivMonotone(a: real, b: real, d: real)
    requires a <= b && d > 0.0
    ensures a / d <= b / d
  {
    var q := (b - a) / d;
    assert q * d == b - a;
    assert b / d == a / d + q;
  }

  /** The row test `delivery_minutes <= sla`. */
  function MinutesWithin(sla: int): Order -> bool {
    (o: Order) => o.minutes <= sla
  }

  /** `(deliv["delivery_minutes"] <= sla).mean() if delivered_orders else 0`. */
  function SlaRate(deliv: seq<Order>, sla: int): (r: real)
    ensures 0.0 <= r <= 1.0
    ensures |deliv| == 0 ==> r == 0.0
    ensures |deliv| > 0 ==> r * |deliv| as real == Count(deliv, MinutesWithin(sla)) as real
  {
    Rate(Count(deliv, MinutesWithin(sla)), |deliv|)
  }

  /** A looser SLA never has a lower on-time fraction. */
  lemma SlaMonotone(deliv: seq<Order>, sla1: int, sla2: int)
    requires sla1 <= sla2
    ensures SlaRate(deliv, sla1) <= SlaRate(deliv, sla2)
  {
    CountMonotone(deliv, MinutesWithin(sla1), MinutesWithin(sla2));
    RateMonotone(Count(deliv, MinutesWithin(sla1)), Count(deliv, MinutesWithin(sla2)), |deliv|);
  }

  /** Every delivered order on time makes the fraction one; none on time makes it zero. */
  lemma SlaExtremes(deliv: seq<Order>, sla: int)
    requires |deliv| > 0
    ensures (forall i :: 0 <= i < |deliv| ==> deliv[i].minutes <= sla) ==> SlaRate(deliv, sla) == 1.0
    ensures (forall i :: 0 <= i < |deliv| ==> deliv[i].minutes > sla) ==> SlaRate(deliv, sla) == 0.0
  {
    CountUniform(deliv, MinutesWithin(sla));
  }

  /** The SLA thresholds the report walks, in minutes. */
  const SlaThresholds: seq<int> := [25, 30, 35, 40]

  /** `round(column.mean(), 2) if delivered_orders else 0`. */
  function GuardedMean(deliv: seq<Order>, f: Order -> real): (m: real)
    ensures |deliv| == 0 ==> m == 0.0
    ensures |deliv| > 0 ==> -0.005 <= m - Mean(deliv, f) <= 0.005
  {
    if |deliv| > 0 then Round2(Mean(deliv, f)) else 0.0
  }

  /** The global KPI block. */
  datatype GlobalKpis = GlobalKpis(
    totalOrders: nat,
    deliveredOrders: nat,
    canceledOrders: nat,
    returnedOrders: nat,
    cancelRate: real,
    returnRate: real,
    avgDeliveryMin: real,
    totalRevenue: real,
    aov: real,
    avgDistance: real,
    slaRates: seq<real>)

  /** The SLA fractions for the listed thresholds, in order. */
  function SlaRates(deliv: seq<Order>): (rates: seq<real>)
    ensures |rates| == |SlaThresholds|
    ensures forall i :: 0 <= i < |rates| ==> rates[i] == SlaRate(deliv, SlaThresholds[i])
    ensures forall i, j :: 0 <= i <= j < |rates| ==> rates[i] <= rates[j]
  {
    var rates := seq(|SlaThresholds|, i requires 0 <= i < |SlaThresholds| => SlaRate(deliv, SlaThresholds[i]));
    assert forall i, j :: 0 <= i <= j < |rates| ==> rates[i] <= rates[j] by {
      forall i, j | 0 <= i <= j < |rates|
        ensures rates[i] <= rates[j]
      {
        SlaMonotone(deliv, SlaThresholds[i], SlaThresholds[j]);
      }
    }
    rates
  }

  /** The global KPI block of an order table. */
  function Global(orders: seq<Order>): (k: GlobalKpis)
    ensures k.totalOrders == |orders|
    ensures k.deliveredOrders == StatusCount(orders, Delivered)
    ensures k.canceledOrders == StatusCount(orders, Canceled)
    ensures k.returnedOrders == StatusCount(orders, Returned)
    ensures |orders| == 0 ==> k.cancelRate == 0.0 && k.returnRate == 0.0
    ensures k.cancelRate == Rate(k.canceledOrders, k.totalOrders)
    ensures k.returnRate == Rate(k.returnedOrders, k.totalOrders)
    ensures 0.0 <= k.cancelRate <= 1.0 && 0.0 <= k.returnRate <= 1.0
    ensures k.deliveredOrders == 0 ==>
      k.avgDeliveryMin == 0.0 && k.aov == 0.0 && k.avgDistance == 0.0 && k.totalRevenue == 0.0
    ensures k.deliveredOrders > 0 ==>
      && -0.005 <= k.avgDeliveryMin - Mean(DeliveredOnly(orders), Minutes) <= 0.005
      && -0.005 <= k.aov - Mean(DeliveredOnly(orders), Revenue) <= 0.005
      && -0.005 <= k.avgDistance - Mean(DeliveredOnly(orders), DistanceKm) <= 0.005
    ensures -0.005 <= k.totalRevenue - Sum(DeliveredOnly(orders), Revenue) <= 0.005
    ensures k.slaRates == SlaRates(DeliveredOnly(orders))
  {
    var deliv := DeliveredOnly(orders);
    var canceled, returned := StatusCount(orders, Canceled), StatusCount(orders, Returned);
    Round2Cents(0.0);
    GlobalKpis(
      |orders|, |deliv|, canceled, returned,
      Rate(canceled, |orders|), Rate(returned, |orders|),
      GuardedMean(deliv, Minutes),
      Round2(Sum(deliv, Revenue)),
      GuardedMean(deliv, Revenue),
      GuardedMean(deliv, DistanceKm),
      SlaRates(deliv))
  }

  /** When every status is one of the three the seeder draws, the three counts add up
      to the number of orders. */
  lemma {:induction false} StatusPartition(orders: seq<Order>)
    requires forall i :: 0 <= i < |orders| ==> orders[i].status in Statuses
    ensures StatusCount(orders, Delivered) + StatusCount(orders, Canceled) + StatusCount(orders, Returned) == |orders|
  {
    if |orders| > 0 {
      StatusPartition(orders[..|orders| - 1]);
      assert Delivered != Canceled && Delivered != Returned && Canceled != Returned by {
        assert Delivered[0] == 'd' && Canceled[0] == 'c' && Returned[0] == 'r';
      }
    }
  }

  /** On orders the seeder can produce, the counts add up and the averages stay inside
      the ranges each field is drawn from. */
  lemma GlobalOfSeeded(orders: seq<Order>)
    requires forall i :: 0 <= i < |orders| ==> WellFormedOrder(orders[i])
    ensures Global(orders).deliveredOrders + Global(orders).canceledOrders + Global(orders).returnedOrders == |orders|
    ensures Global(orders).deliveredOrders > 0 ==>
      && 10.0 <= Global(orders).avgDeliveryMin <= 79.0
      && 0.8 <= Global(orders).avgDistance <= 10.0
      && Global(orders).aov >= 5.0
  {
    StatusPartition(orders);
    var deliv := DeliveredOnly(orders);
    if |deliv| > 0 {
      assert forall i :: 0 <= i < |deliv| ==> deliv[i] in orders;
      assert forall i :: 0 <= i < |deliv| ==> WellFormedOrder(deliv[i]);
      MeanBounds(deliv, Minutes, 10.0, 79.0);
      Round2Within(10.0, 79.0, Mean(deliv, Minutes));
      MeanBounds(deliv, DistanceKm, 0.8, 10.0);
      Round2Within(0.8, 10.0, Mean(deliv, DistanceKm));
      MeanAtLeast(deliv, Revenue, 5.0);
      Round2Monotone(5.0, Mean(deliv, Revenue));
      Round2Cents(5.0);
    }
  }

  /** Days of the week, Monday first. */
  datatype Weekday = Monday | Tuesday | Wednesday | Thursday | Friday | Saturday | Sunday

  const Week: seq<Weekday> := [Monday, Tuesday, Wednesday, Thursday, Friday, Saturday, Sunday]

  /** The weekday of a day counted from 1970-01-01, which was a Thursday. */
  function WeekdayOf(day: int): Weekday {
    Week[(day + 3) % 7]
  }

  /** `dt.day_name()`. */
  function DayName(w: Weekday): string {
    match w
    case Monday => "Monday"
    case Tuesday => "Tuesday"
    case Wednesday => "Wednesday"
    case Thursday => "Thursday"
    case Friday => "Friday"
    case Saturday => "Saturday"
    case Sunday => "Sunday"
  }

  const WeekendNames: seq<string> := ["Friday", "Saturday", "Sunday"]

  /** `dow.isin(["Friday", "Saturday", "Sunday"])`, on the order's placement day. */
  function IsWeekend(t: Timestamp): bool {
    DayName(WeekdayOf(t.day)) in WeekendNames
  }

  /** An order is a weekend order exactly when it was placed on a Friday, Saturday or
      Sunday, that is on the last three days of the Monday-first week; the flag repeats
      every seven days. */
  lemma IsWeekendIff(t: Timestamp)
    ensures IsWeekend(t) <==> WeekdayOf(t.day) == Friday || WeekdayOf(t.day) == Saturday || WeekdayOf(t.day) == Sunday
    ensures IsWeekend(t) <==> (t.day + 3) % 7 >= 4
    ensures IsWeekend(t) == IsWeekend(Timestamp(t.day + 7, t.hour, t.minute))
  {
    var w := WeekdayOf(t.day);
    assert (t.day + 7 + 3) % 7 == (t.day + 3) % 7;
    match w
    case Monday => assert DayName(w)[0] == 'M';
    case Tuesday => assert DayName(w)[0] == 'T';
    case Wednesday => assert DayName(w)[0] == 'W';
    case Thursday => assert DayName(w)[0] == 'T' && DayName(w)[1] == 'h';
    case Friday =>
    case Saturday =>
    case Sunday =>
  }
}

=== FILE: money.dfy ===
/** Floors, caps and two-decimal rounding as the seeder and the analyzer apply them
    to money, distances and ratings. Values are exact reals: Python's binary floating
    point is not modelled. */
module Money {

  function Max(a: real, b: real): (r: real)
    ensures r >= a && r >= b && (r == a || r == b)
  {
    if a >= b then a else b
  }

  function Min(a: real, b: real): (r: real)
    ensures r <= a && r <= b && (r == a || r == b)
  {
    if a <= b then a else b
  }

  /** A product of two bounded non-negative factors is bounded by the product of the bounds. */
  lemma ProductBound(x: real, y: real, xMax: real, yMax: real)
    requires 0.0 <= x <= xMax && 0.0 <= y <= yMax
    ensures x * y <= xMax * yMax
  {
    assert x * y <= xMax * y;
    assert xMax * y <= xMax * yMax;
  }

  /** Python's `int(x)` on a float: truncation toward zero. */
  function Trunc(x: real): (n: int)
    ensures x >= 0.0 ==> n as real <= x < n as real + 1.0
    ensures x < 0.0 ==> n as real - 1.0 < x <= n as real
  {
    if x >= 0.0 then x.Floor else -((-x).Floor)
  }

  /** A whole number of hundredths. */
  predicate IsCents(x: real) {
    (x * 100.0).Floor as real == x * 100.0
  }

  /** `round(x, 2)`: the nearest hundredth, ties to the even hundredth. */
  function Round2(x: real): (r: real)
    ensures IsCents(r)
    ensures -0.005 <= r - x <= 0.005
  {
    var y := x * 100.0;
    var f := y.Floor;
    var frac := y - f as real;
    var n := if frac > 0.5 then f + 1
             else if frac < 0.5 then f
             else if f % 2 == 0 then f
             else f + 1;
    assert (n as real / 100.0) * 100.0 == n as real;
    n as real / 100.0
  }

  /** Rounding never reverses the order of two values. */
  lemma Round2Monotone(x: real, y: real)
    requires x <= y
    ensures Round2(x) <= Round2(y)
  {
    var fx, fy := (x * 100.0).Floor, (y * 100.0).Floor;
    assert fx <= fy;
    if fx < fy {
      assert Round2(x) * 100.0 <= fx as real + 1.0;
      assert Round2(y) * 100.0 >= fy as real;
    }
  }

  /** A value already in whole hundredths is left as it is. */
  lemma Round2Cents(x: real)
    requires IsCents(x)
    ensures Round2(x) == x
  {
  }

  /** Rounding a value between two whole-hundredth bounds stays between them. */
  lemma Round2Within(lo: real, hi: real, x: real)
    requires IsCents(lo) && IsCents(hi) && lo <= x <= hi
    ensures lo <= Round2(x) <= hi
  {
    Round2Monotone(lo, x);
    Round2Monotone(x, hi);
    Round2Cents(lo);
    Round2Cents(hi);
  }
}

=== FILE: options.dfy ===
/** The optional value used for nullable columns and for steps the seeder lets fail. */
module Options {

  /** `None` stands for SQL NULL / Python `None`, or for a step that raises `IndexError` in the seeder. */
  datatype Option<+T> = None | Some(value: T)
}

=== FILE: order_seeding.dfy ===
/** The seeder's order rows. Every random draw behind an order row is an input: a
    position for each `random.choice`, the value each `uniform`, `randint` or
    `gauss` call returned, and for each weighted `choices` the value it returned
    (for the status, its position in the status list). The dropoff redraw loop is one pick
    among the areas other than the pickup area. Only the support of each
    distribution is modelled. */
module OrderSeeding {
  import opened Options
  import opened Seqs
  import opened Money
  import opened Records
  import opened Baghdad

  /** A row of `SELECT vendor_id, cuisine, area FROM vendors`. */
  datatype VendorMeta = VendorMeta(id: int, cuisine: string, area: string)

  /** The draws behind one order, in the order the seeder makes them. */
  datatype OrderDraw = OrderDraw(
    customerPick: nat,
    driverPick: nat,
    vendorPick: nat,
    hour: nat,
    dayOffset: nat,
    minute: nat,
    dropoffPick: nat,
    distance: real,
    speed: real,
    noise: int,
    subtotal: real,
    feeFactor: real,
    tipGauss: real,
    statusPick: nat,
    ratingGauss: real)

  /** The support of each distribution the seeder samples (Gaussian draws are unbounded). */
  predicate InSupport(d: OrderDraw) {
    && d.hour < 24 && d.dayOffset <= 119 && d.minute <= 59
    && 0.8 <= d.distance <= 10.0
    && 4.2 <= d.speed <= 7.2
    && -3 <= d.noise <= 7
    && 4.0 <= d.subtotal <= 30.0
    && 0.2 <= d.feeFactor <= 0.8
    && d.statusPick < |Statuses|
  }

  /** `random.choice(xs)` with drawn position `k`; on an empty list the seeder raises `IndexError`. */
  function Choose<T>(xs: seq<T>, k: nat): (r: Option<T>)
    ensures r.None? <==> |xs| == 0
    ensures r.Some? ==> r.value in xs
    ensures k < |xs| ==> r == Some(xs[k])
  {
    if |xs| == 0 then None else Some(xs[k % |xs|])
  }

  /** The test the dropoff loop repeats until it fails: "is this the pickup area?". */
  function OtherThan(pickup: string): string -> bool {
    a => a != pickup
  }

  /** The areas the dropoff rejection loop can stop at. */
  function DropoffChoices(areas: seq<string>, pickup: string): (cs: seq<string>)
    requires exists i :: 0 <= i < |areas| && areas[i] != pickup
    ensures |cs| > 0
    ensures forall a :: a in cs <==> a in areas && a != pickup
  {
    var cs := Filter(areas, OtherThan(pickup));
    CountPositive(areas, OtherThan(pickup));
    cs
  }

  /** The dropoff area: the loop redraws uniformly until the area differs from pickup,
      so its outcome is some other area of the list; the draw says which. The loop
      ends only when the list holds an area other than pickup. */
  function Dropoff(areas: seq<string>, pickup: string, k: nat): (d: string)
    requires exists i :: 0 <= i < |areas| && areas[i] != pickup
    ensures d in areas && d != pickup
  {
    var cs := DropoffChoices(areas, pickup);
    cs[k % |cs|]
  }

  /** An in-range draw position selects itself; kept apart so the solver meets the
      remainder on its own rather than inside the lemma below. */
  lemma SmallRemainder(i: nat, n: nat)
    requires i < n
    ensures i % n == i
  {
  }

  /** Every area other than the pickup area is a possible dropoff. */
  lemma DropoffReachesEvery(areas: seq<string>, pickup: string, d: string)
    requires d in areas && d != pickup
    ensures exists k: nat :: Dropoff(areas, pickup, k) == d
  {
    var j :| 0 <= j < |areas| && areas[j] == d;
    assert areas[j] != pickup;
    var cs := DropoffChoices(areas, pickup);
    assert d in cs;
    var i :| 0 <= i < |cs| && cs[i] == d;
    SmallRemainder(i, |cs|);
    assert Dropoff(areas, pickup, i) == cs[i];
  }

  /** The neighbourhood list always holds an area other than any given pickup area,
      so the seeder's dropoff loop always ends. */
  lemma DropoffLoopEnds(pickup: string)
    ensures exists i :: 0 <= i < |Areas| && Areas[i] != pickup
  {
    KeysAreAreas();
    assert Areas[0] != Areas[1];
    if Areas[0] == pickup {
      assert Areas[1] != pickup;
    }
  }

  /** The seeder's dropoff over the neighbourhood list. */
  function SeededDropoff(pickup: string, k: nat): (d: string)
    ensures d in Areas && d != pickup
  {
    DropoffLoopEnds(pickup);
    Dropoff(Areas, pickup, k)
  }

  /** The outcome the weighted status draw picked. */
  function DrawnStatus(pick: nat): (status: string)
    requires pick < |Statuses|
    ensures status in Statuses
  {
    Statuses[pick]
  }

  /** `max(10, int(distance * speed + noise))`. */
  function DeliveryMinutes(distance: real, speed: real, noise: int): (m: int)
    ensures m >= 10
    ensures 0.0 <= distance <= 10.0 && 0.0 <= speed <= 7.2 && noise <= 7 ==> m <= 79
  {
    var product := distance * speed;
    var raw := Trunc(product + noise as real);
    assert 0.0 <= distance <= 10.0 && 0.0 <= speed <= 7.2 ==> product <= 72.0 by {
      if 0.0 <= distance <= 10.0 && 0.0 <= speed <= 7.2 {
        ProductBound(distance, speed, 10.0, 7.2);
      }
    }
    assert raw <= 0 || raw as real <= product + noise as real;
    if raw > 10 then raw else 10
  }

  /** `round(uniform(0.8, 10.0), 2)`. */
  function Distance(draw: real): (km: real)
    requires 0.8 <= draw <= 10.0
    ensures 0.8 <= km <= 10.0 && IsCents(km)
  {
    Round2Within(0.8, 10.0, draw);
    Round2(draw)
  }

  /** `round(uniform(4.0, 30.0), 2)`. */
  function Subtotal(draw: real): (amount: real)
    requires 4.0 <= draw <= 30.0
    ensures 4.0 <= amount <= 30.0 && IsCents(amount)
  {
    Round2Within(4.0, 30.0, draw);
    Round2(draw)
  }

  /** `round(max(1.0, distance * factor), 2)`: never below one, and at most 8 for the
      drawn ranges. */
  function DeliveryFee(distance: real, factor: real): (fee: real)
    ensures fee >= 1.0
    ensures 0.0 <= distance <= 10.0 && 0.0 <= factor <= 0.8 ==> fee <= 8.0
  {
    var raw := Max(1.0, distance * factor);
    assert 0.0 <= distance <= 10.0 && 0.0 <= factor <= 0.8 ==> distance * factor <= 8.0 by {
      if 0.0 <= distance <= 10.0 && 0.0 <= factor <= 0.8 {
        ProductBound(distance, factor, 10.0, 0.8);
      }
    }
    Round2Monotone(1.0, raw);
    Round2Cents(1.0);
    assert raw <= 8.0 ==> Round2(raw) <= 8.0 by {
      if raw <= 8.0 {
        Round2Within(1.0, 8.0, raw);
      }
    }
    Round2(raw)
  }

  /** `round(max(0.0, gauss(1.0, 1.0)), 2)`: never negative. */
  function Tip(gauss: real): (tip: real)
    ensures tip >= 0.0
  {
    Round2Monotone(0.0, Max(0.0, gauss));
    Round2Cents(0.0);
    Round2(Max(0.0, gauss))
  }

  /** The driver rating: `round(min(5.0, max(1.0, gauss(4.4, 0.5))), 2)` for a delivered
      order and NULL otherwise. */
  function DriverRating(status: string, gauss: real): (rating: Option<real>)
    ensures rating.Some? <==> status == Delivered
    ensures rating.Some? ==> 1.0 <= rating.value <= 5.0
  {
    var clamped := Min(5.0, Max(1.0, gauss));
    Round2Within(1.0, 5.0, clamped);
    if status == Delivered then Some(Round2(clamped)) else None
  }

  /** One order row from the chosen customer, driver and vendor and the remaining draws. */
  function BuildOrder(customerId: int, driverId: int, v: VendorMeta, baseDay: int, d: OrderDraw): (o: Order)
    requires InSupport(d)
    ensures o.customerId == customerId && o.driverId == driverId && o.vendorId == v.id
    ensures o.pickupArea == v.area && o.foodCategory == v.cuisine
    ensures baseDay <= o.placed.day < baseDay + 120
    ensures WellFormedOrder(o)
  {
    var status := DrawnStatus(d.statusPick);
    var distance := Distance(d.distance);
    Order(
      customerId, driverId, v.id, v.cuisine,
      Timestamp(baseDay + d.dayOffset, d.hour, d.minute),
      v.area, SeededDropoff(v.area, d.dropoffPick),
      distance, DeliveryMinutes(distance, d.speed, d.noise),
      Subtotal(d.subtotal), DeliveryFee(distance, d.feeFactor), Tip(d.tipGauss),
      DriverRating(status, d.ratingGauss),
      status)
  }

  /** The invariants every seeded order carries on its own. */
  predicate WellFormedOrder(o: Order) {
    && o.dropoffArea in Areas && o.dropoffArea != o.pickupArea
    && o.placed.hour < 24 && o.placed.minute < 60
    && 0.8 <= o.distanceKm <= 10.0
    && 10 <= o.minutes <= 79
    && 4.0 <= o.subtotal <= 30.0
    && 1.0 <= o.deliveryFee <= 8.0
    && o.tip >= 0.0
    && o.status in Statuses
    && (o.driverRating.Some? <==> o.status == Delivered)
    && (o.driverRating.Some? ==> 1.0 <= o.driverRating.value <= 5.0)
  }

  /** A seeded order refers to listed customers, drivers and vendors, takes its pickup
      area and food category from its vendor, and is well formed. */
  predicate Seeded(o: Order, customerIds: seq<int>, driverIds: seq<int>, meta: seq<VendorMeta>, baseDay: int) {
    && o.customerId in customerIds
    && o.driverId in driverIds
    && (exists v :: v in meta && v.id == o.vendorId && v.area == o.pickupArea && v.cuisine == o.foodCategory)
    && baseDay <= o.placed.day < baseDay + 120
    && WellFormedOrder(o)
  }

  /** One iteration of the order loop: the three `random.choice` calls, then the row. */
  function OrderFor(customerIds: seq<int>, driverIds: seq<int>, meta: seq<VendorMeta>, baseDay: int, d: OrderDraw): (o: Order)
    requires |customerIds| > 0 && |driverIds| > 0 && |meta| > 0
    requires InSupport(d)
    ensures Seeded(o, customerIds, driverIds, meta, baseDay)
  {
    var vendor := Choose(meta, d.vendorPick).value;
    var o := BuildOrder(Choose(customerIds, d.customerPick).value, Choose(driverIds, d.driverPick).value, vendor, baseDay, d);
    assert vendor in meta && vendor.id == o.vendorId && vendor.area == o.pickupArea && vendor.cuisine == o.foodCategory;
    o
  }

  /** Every order of the batch is seeded. */
  predicate AllSeeded(orders: seq<Order>, customerIds: seq<int>, driverIds: seq<int>, meta: seq<VendorMeta>, baseDay: int) {
    forall i :: 0 <= i < |orders| ==> Seeded(orders[i], customerIds, driverIds, meta, baseDay)
  }

  /** Appending a seeded order keeps the batch seeded. */
  lemma AllSeededAppend(orders: seq<Order>, o: Order, customerIds: seq<int>, driverIds: seq<int>, meta: seq<VendorMeta>, baseDay: int)
    requires AllSeeded(orders, customerIds, driverIds, meta, baseDay)
    requires Seeded(o, customerIds, driverIds, meta, baseDay)
    ensures AllSeeded(orders + [o], customerIds, driverIds, meta, baseDay)
  {
  }

  /** The order loop: one order per draw. It fails (the seeder's `IndexError`) exactly
      when some draw is made and a list to choose from is empty. */
  method GenerateOrders(customerIds: seq<int>, driverIds: seq<int>, meta: seq<VendorMeta>,
                        baseDay: int, draws: seq<OrderDraw>) returns (r: Option<seq<Order>>)
    requires forall i :: 0 <= i < |draws| ==> InSupport(draws[i])
    ensures r.None? <==> |draws| > 0 && (|customerIds| == 0 || |driverIds| == 0 || |meta| == 0)
    ensures r.Some? ==> |r.value| == |draws|
    ensures r.Some? ==> AllSeeded(r.value, customerIds, driverIds, meta, baseDay)
  {
    if |draws| > 0 && (|customerIds| == 0 || |driverIds| == 0 || |meta| == 0) {
      return None;
    }
    var orders: seq<Order> := [];
    var i := 0;
    while i < |draws|
      invariant 0 <= i <= |draws|
      invariant |orders| == i
      invariant AllSeeded(orders, customerIds, driverIds, meta, baseDay)
    {
      var o := OrderFor(customerIds, driverIds, meta, baseDay, draws[i]);
      AllSeededAppend(orders, o, customerIds, driverIds, meta, baseDay);
      orders := orders + [o];
      i := i + 1;
    }
    return Some(orders);
  }

  /** When the vendor rows are the seeder's own (every vendor area a neighbourhood),
      both ends of every seeded order are neighbourhoods. */
  lemma SeededAreasAreNeighbourhoods(o: Order, customerIds: seq<int>, driverIds: seq<int>, meta: seq<VendorMeta>, baseDay: int)
    requires Seeded(o, customerIds, driverIds, meta, baseDay)
    requires forall v :: v in meta ==> v.area in Areas
    ensures o.pickupArea in Areas && o.dropoffArea in Areas && o.pickupArea != o.dropoffArea
  {
    var v :| v in meta && v.id == o.vendorId && v.area == o.pickupArea && v.cuisine == o.foodCategory;
  }
}

=== FILE: records.dfy ===
/** The rows the seeder writes and the analyzer reads back: one datatype per table
    (drivers and customers only appear through their identifiers). */
module Records {
  import opened Options

  /** The three order outcomes the seeder draws from. */
  const Delivered: string := "delivered"
  const Canceled: string := "canceled"
  const Returned: string := "returned"
  const Statuses: seq<string> := [Delivered, Canceled, Returned]

  /** When an order was placed: whole days since 1970-01-01, then hour and minute of that day. */
  datatype Timestamp = Timestamp(day: int, hour: nat, minute: nat)

  /** A row of the `orders` table. `driverRating` is NULL for orders that were not delivered. */
  datatype Order = Order(
    customerId: int,
    driverId: int,
    vendorId: int,
    foodCategory: string,
    placed: Timestamp,
    pickupArea: string,
    dropoffArea: string,
    distanceKm: real,
    minutes: int,
    subtotal: real,
    deliveryFee: real,
    tip: real,
    driverRating: Option<real>,
    status: string)

  /** A row of the `vendors` table (the join date is not modelled). */
  datatype Vendor = Vendor(name: string, cuisine: string, area: string, rating: real)
}

=== FILE: seqs.dfy ===
/** Sequence helpers shared by the seeder and the analyzer: counting, filtering,
    summing, removing duplicates and ordering by a key. Counting and summing walk
    a sequence from its last element, so a loop over prefixes extends them by one
    step. */
module Seqs {

  /** No element occurs twice. */
  predicate NoDup<T(==)>(s: seq<T>) {
    forall i, j :: 0 <= i < j < |s| ==> s[i] != s[j]
  }

  /** Number of elements that satisfy `p` (a boolean mask's `.sum()`). */
  function Count<T>(s: seq<T>, p: T -> bool): (n: nat)
    ensures n <= |s|
  {
    if |s| == 0 then 0 else Count(s[..|s| - 1], p) + (if p(s[|s| - 1]) then 1 else 0)
  }

  lemma {:induction false} CountAppend<T>(a: seq<T>, b: seq<T>, p: T -> bool)
    ensures Count(a + b, p) == Count(a, p) + Count(b, p)
    decreases |b|
  {
    if |b| == 0 {
      assert a + b == a;
    } else {
      assert (a + b)[..|a + b| - 1] == a + b[..|b| - 1];
      CountAppend(a, b[..|b| - 1], p);
    }
  }

  /** A weaker predicate never counts fewer elements. */
  lemma {:induction false} CountMonotone<T>(s: seq<T>, p: T -> bool, q: T -> bool)
    requires forall i :: 0 <= i < |s| && p(s[i]) ==> q(s[i])
    ensures Count(s, p) <= Count(s, q)
  {
    if |s| > 0 {
      CountMonotone(s[..|s| - 1], p, q);
    }
  }

  /** A count is positive exactly when some element is counted. */
  lemma {:induction false} CountPositive<T>(s: seq<T>, p: T -> bool)
    ensures Count(s, p) > 0 <==> exists i :: 0 <= i < |s| && p(s[i])
  {
    if |s| > 0 {
      var init := s[..|s| - 1];
      CountPositive(init, p);
      if exists i :: 0 <= i < |init| && p(init[i]) {
        var i :| 0 <= i < |init| && p(init[i]);
        assert p(s[i]);
      }
    }
  }

  /** When every element is counted the count is the length; when none is, it is zero. */
  lemma {:induction false} CountUniform<T>(s: seq<T>, p: T -> bool)
    ensures (forall i :: 0 <= i < |s| ==> p(s[i])) ==> Count(s, p) == |s|
    ensures (forall i :: 0 <= i < |s| ==> !p(s[i])) ==> Count(s, p) == 0
  {
    if |s| > 0 {
      CountUniform(s[..|s| - 1], p);
    }
  }

  /** Two different positions that satisfy `p` make the count at least two. */
  lemma {:induction false} CountTwo<T>(s: seq<T>, p: T -> bool, i: int, j: int)
    requires 0 <= i < j < |s| && p(s[i]) && p(s[j])
    ensures Count(s, p) >= 2
  {
    assert s == s[..j] + s[j..];
    CountAppend(s[..j], s[j..], p);
    CountPositive(s[..j], p);
    assert s[..j][i] == s[i];
    CountPositive(s[j..], p);
    assert s[j..][0] == s[j];
  }

  /** The elements of a sequence, as a set. */
  function SetOf<T>(s: seq<T>): set<T> {
    set x | x in s
  }

  /** The members of a set that satisfy `p`. */
  function Select<T>(e: set<T>, p: T -> bool): set<T> {
    set x | x in e && p(x)
  }

  /** Counting over a duplicate-free sequence is the size of the set of counted elements. */
  lemma {:induction false} CountAsSet<T>(s: seq<T>, p: T -> bool)
    requires NoDup(s)
    ensures Count(s, p) == |Select(SetOf(s), p)|
  {
    if |s| == 0 {
      assert Select(SetOf(s), p) == {};
    } else {
      var init := s[..|s| - 1];
      var last := s[|s| - 1];
      assert NoDup(init);
      CountAsSet(init, p);
      assert forall i :: 0 <= i < |init| ==> init[i] == s[i];
      assert last !in init;
      assert s == init + [last];
      if p(last) {
        assert Select(SetOf(s), p) == Select(SetOf(init), p) + {last};
      } else {
        assert Select(SetOf(s), p) == Select(SetOf(init), p);
      }
    }
  }

  /** The elements that satisfy `p`, in their original order (a boolean-mask row selection). */
  function Filter<T(!new)>(s: seq<T>, p: T -> bool): (r: seq<T>)
    ensures |r| == Count(s, p)
    ensures forall i :: 0 <= i < |r| ==> p(r[i])
    ensures forall x :: x in r <==> x in s && p(x)
    ensures forall x :: multiset(r)[x] == if p(x) then multiset(s)[x] else 0
  {
    if |s| == 0 then []
    else
      var init := s[..|s| - 1];
      var last := s[|s| - 1];
      assert s == init + [last];
      var r := Filter(init, p);
      if p(last) then r + [last] else r
  }

  /** Selecting from a concatenation selects from each part, in order. */
  lemma {:induction false} FilterAppend<T(!new)>(a: seq<T>, b: seq<T>, p: T -> bool)
    ensures Filter(a + b, p) == Filter(a, p) + Filter(b, p)
    decreases |b|
  {
    if |b| == 0 {
      assert a + b == a;
    } else {
      assert (a + b)[..|a + b| - 1] == a + b[..|b| - 1];
      FilterAppend(a, b[..|b| - 1], p);
    }
  }

  /** When every element is selected the selection is the whole sequence. */
  lemma {:induction false} FilterAll<T(!new)>(s: seq<T>, p: T -> bool)
    requires forall i :: 0 <= i < |s| ==> p(s[i])
    ensures Filter(s, p) == s
  {
    if |s| > 0 {
      var init := s[..|s| - 1];
      assert s == init + [s[|s| - 1]];
      FilterAll(init, p);
    }
  }

  /** When no element is selected the selection is empty. */
  lemma {:induction false} FilterNone<T(!new)>(s: seq<T>, p: T -> bool)
    requires forall i :: 0 <= i < |s| ==> !p(s[i])
    ensures Filter(s, p) == []
  {
    if |s| > 0 {
      FilterNone(s[..|s| - 1], p);
    }
  }

  /** `f` applied to every element (a column selection). */
  function Map<T, U>(s: seq<T>, f: T -> U): (r: seq<U>)
    ensures |r| == |s|
    ensures forall i :: 0 <= i < |s| ==> r[i] == f(s[i])
  {
    seq(|s|, i requires 0 <= i < |s| => f(s[i]))
  }

  /** Both tests at once. */
  function Both<T>(p: T -> bool, q: T -> bool): T -> bool {
    (x: T) => p(x) && q(x)
  }

  /** `f` where `p` holds and zero elsewhere. */
  function Masked<T>(p: T -> bool, f: T -> real): T -> real {
    (x: T) => if p(x) then f(x) else 0.0
  }

  /** Counting inside a filtered selection is counting both tests over the whole sequence. */
  lemma {:induction false} CountFilter<T(!new)>(s: seq<T>, p: T -> bool, q: T -> bool)
    ensures Count(Filter(s, p), q) == Count(s, Both(p, q))
  {
    if |s| > 0 {
      var init, last := s[..|s| - 1], s[|s| - 1];
      CountFilter(init, p, q);
      var r := Filter(init, p);
      if p(last) {
        assert (r + [last])[..|r|] == r;
      }
    }
  }

  /** Counting at least two satisfying elements finds two different positions. */
  lemma {:induction false} CountTwoWitness<T>(s: seq<T>, p: T -> bool)
    requires Count(s, p) >= 2
    ensures exists i, j :: 0 <= i < j < |s| && p(s[i]) && p(s[j])
  {
    var init := s[..|s| - 1];
    if Count(init, p) >= 2 {
      CountTwoWitness(init, p);
      var i, j :| 0 <= i < j < |init| && p(init[i]) && p(init[j]);
      assert s[i] == init[i] && s[j] == init[j];
    } else {
      CountPositive(init, p);
      var i :| 0 <= i < |init| && p(init[i]);
      assert s[i] == init[i];
      assert p(s[|s| - 1]);
    }
  }

  /** Sum of `f` over the elements (a column's `.sum()`). */
  function Sum<T>(s: seq<T>, f: T -> real): real {
    if |s| == 0 then 0.0 else Sum(s[..|s| - 1], f) + f(s[|s| - 1])
  }

  /** Summing inside a filtered selection is summing the masked values over the whole sequence. */
  lemma {:induction false} SumFilter<T(!new)>(s: seq<T>, p: T -> bool, f: T -> real)
    ensures Sum(Filter(s, p), f) == Sum(s, Masked(p, f))
  {
    if |s| > 0 {
      var init, last := s[..|s| - 1], s[|s| - 1];
      SumFilter(init, p, f);
      var r := Filter(init, p);
      if p(last) {
        assert (r + [last])[..|r|] == r;
      }
    }
  }

  /** When every term lies in [lo, hi], the sum lies in [lo * n, hi * n]. */
  lemma {:induction false} SumBounds<T>(s: seq<T>, f: T -> real, lo: real, hi: real)
    requires forall i :: 0 <= i < |s| ==> lo <= f(s[i]) <= hi
    ensures lo * |s| as real <= Sum(s, f) <= hi * |s| as real
  {
    if |s| > 0 {
      SumBounds(s[..|s| - 1], f, lo, hi);
    }
  }

  /** The arithmetic mean of `f`, or 0 for an empty sequence (the analyzer's `if n else 0` guard). */
  function Mean<T>(s: seq<T>, f: T -> real): (m: real)
    ensures |s| == 0 ==> m == 0.0
    ensures |s| > 0 ==> m * |s| as real == Sum(s, f)
  {
    if |s| == 0 then 0.0 else Sum(s, f) / |s| as real
  }

  /** The mean of terms that all lie in [lo, hi] also lies in [lo, hi]. */
  lemma MeanBounds<T>(s: seq<T>, f: T -> real, lo: real, hi: real)
    requires |s| > 0
    requires forall i :: 0 <= i < |s| ==> lo <= f(s[i]) <= hi
    ensures lo <= Mean(s, f) <= hi
  {
    SumBounds(s, f, lo, hi);
  }

  /** When every term is at least `lo`, so is a non-empty mean. */
  lemma {:induction false} MeanAtLeast<T>(s: seq<T>, f: T -> real, lo: real)
    requires |s| > 0
    requires forall i :: 0 <= i < |s| ==> lo <= f(s[i])
    ensures lo <= Mean(s, f)
  {
    SumAtLeast(s, f, lo);
  }

  lemma {:induction false} SumAtLeast<T>(s: seq<T>, f: T -> real, lo: real)
    requires forall i :: 0 <= i < |s| ==> lo <= f(s[i])
    ensures lo * |s| as real <= Sum(s, f)
  {
    if |s| > 0 {
      SumAtLeast(s[..|s| - 1], f, lo);
    }
  }

  /** The distinct elements of `s`, each kept at its first occurrence. */
  function Distinct<T(==,!new)>(s: seq<T>): (r: seq<T>)
    ensures NoDup(r)
    ensures forall x :: x in r <==> x in s
    ensures |r| <= |s|
  {
    if |s| == 0 then []
    else
      var init := s[..|s| - 1];
      var last := s[|s| - 1];
      assert s == init + [last];
      var r := Distinct(init);
      if last in init then r else r + [last]
  }

  /** A duplicate-free sequence has as many elements as its set. */
  lemma {:induction false} DistinctCard<T>(s: seq<T>)
    requires NoDup(s)
    ensures |SetOf(s)| == |s|
  {
    if |s| > 0 {
      var init := s[..|s| - 1];
      assert NoDup(init);
      DistinctCard(init);
      assert forall i :: 0 <= i < |init| ==> init[i] == s[i];
      assert s[|s| - 1] !in init;
      assert SetOf(s) == SetOf(init) + {s[|s| - 1]};
    }
  }

  /** In a duplicate-free sequence every element has multiplicity at most one. */
  lemma {:induction false} NoDupMultiplicity<T>(s: seq<T>, x: T)
    requires NoDup(s)
    ensures multiset(s)[x] <= 1
  {
    if |s| > 0 {
      var init := s[..|s| - 1];
      assert s == init + [s[|s| - 1]];
      assert NoDup(init);
      NoDupMultiplicity(init, x);
      assert forall i :: 0 <= i < |init| ==> init[i] == s[i];
      assert s[|s| - 1] !in init;
    }
  }

  /** A rearrangement of a duplicate-free sequence is duplicate-free. */
  lemma NoDupPermutation<T>(a: seq<T>, b: seq<T>)
    requires NoDup(a) && multiset(a) == multiset(b)
    ensures NoDup(b)
  {
    forall i, j | 0 <= i < j < |b|
      ensures b[i] != b[j]
    {
      if b[i] == b[j] {
        assert b == b[..j] + [b[j]] + b[j + 1..];
        assert b[i] in b[..j];
        assert multiset(b[..j])[b[i]] >= 1;
        NoDupMultiplicity(a, b[i]);
      }
    }
  }

  /** Keys never increase along the sequence. */
  predicate SortedDesc<T>(s: seq<T>, key: T -> int) {
    forall i, j :: 0 <= i < j < |s| ==> key(s[i]) >= key(s[j])
  }

  /** A sorted sequence stays sorted under a new head whose key reaches its first key. */
  lemma SortedCons<T>(h: T, s: seq<T>, key: T -> int)
    requires SortedDesc(s, key)
    requires |s| == 0 || key(h) >= key(s[0])
    ensures SortedDesc([h] + s, key)
  {
    var r := [h] + s;
    forall i, j | 0 <= i < j < |r|
      ensures key(r[i]) >= key(r[j])
    {
      if i == 0 && j > 1 {
        assert r[j] == s[j - 1];
      }
    }
  }

  /** Puts `x` in front of the first element whose key it reaches. */
  function Insert<T>(x: T, s: seq<T>, key: T -> int): (r: seq<T>)
    requires SortedDesc(s, key)
    ensures SortedDesc(r, key)
    ensures multiset(r) == multiset(s) + multiset{x}
    ensures |r| == |s| + 1
    ensures r[0] == x || (|s| > 0 && r[0] == s[0])
  {
    if |s| == 0 then [x]
    else if key(x) >= key(s[0]) then [x] + s
    else
      assert s == [s[0]] + s[1..];
      var rest := Insert(x, s[1..], key);
      SortedCons(s[0], rest, key);
      [s[0]] + rest
  }

  /** Orders by descending key (insertion sort); the order among equal keys is not promised. */
  function SortDesc<T>(s: seq<T>, key: T -> int): (r: seq<T>)
    ensures SortedDesc(r, key)
    ensures multiset(r) == multiset(s)
    ensures |r| == |s|
  {
    if |s| == 0 then []
    else
      assert s == [s[0]] + s[1..];
      Insert(s[0], SortDesc(s[1..], key), key)
  }

  /** The first `k` elements, or all of them when there are fewer (`.head(k)`). */
  function Take<T>(s: seq<T>, k: nat): (r: seq<T>)
    ensures |r| == if |s| < k then |s| else k
    ensures forall i :: 0 <= i < |r| ==> r[i] == s[i]
  {
    if |s| < k then s else s[..k]
  }
}

=== FILE: vendor_areas.dfy ===
/** The tables keyed by the vendor's area. Delivered orders are left-merged with the
    vendor table on `vendor_id`, so each row carries its vendor's name and area
    when the vendor exists; grouping on the vendor's area then drops the rows
    without a vendor. From these rows: the busiest hour of each area, and the three
    vendors with the most orders in each area. */
module VendorAreas {
  import opened Options
  import opened Seqs
  import opened Records

  /** A delivered order with the vendor row the merge found for it, if any. */
  datatype Sale = Sale(order: Order, vendor: Option<Vendor>)

  /** The merge of one order: the vendor row with its id, or none. */
  function Matched(vendors: map<int, Vendor>): Order -> Sale {
    (o: Order) => Sale(o, if o.vendorId in vendors then Some(vendors[o.vendorId]) else None)
  }

  /** `deliv.merge(vendors, on="vendor_id", how="left")`, with `vendor_id` the key of
      the vendor table: one row per delivered order, in order. */
  function JoinVendors(deliv: seq<Order>, vendors: map<int, Vendor>): (sales: seq<Sale>)
    ensures |sales| == |deliv|
    ensures forall i :: 0 <= i < |sales| ==> sales[i].order == deliv[i]
    ensures forall i :: 0 <= i < |sales| ==> (sales[i].vendor.Some? <==> deliv[i].vendorId in vendors)
    ensures forall i :: 0 <= i < |sales| && sales[i].vendor.Some? ==> sales[i].vendor.value == vendors[deliv[i].vendorId]
  {
    Map(deliv, Matched(vendors))
  }

  /** The row belongs to a vendor of this area. */
  function InArea(area: string): Sale -> bool {
    (s: Sale) => s.vendor.Some? && s.vendor.value.area == area
  }

  /** Some row belongs to a vendor of this area. */
  predicate AreaPresent(sales: seq<Sale>, area: string) {
    exists j :: 0 <= j < |sales| && InArea(area)(sales[j])
  }

  function HourOf(s: Sale): nat {
    s.order.placed.hour
  }

  function AreaKey(s: Sale): string {
    if s.vendor.Some? then s.vendor.value.area else ""
  }

  /** The vendor areas of the rows that found a vendor, each once. */
  function VendorAreasOf(sales: seq<Sale>): (areas: seq<string>)
    ensures NoDup(areas)
    ensures forall a :: a in areas <==> AreaPresent(sales, a)
  {
    var all := Map(Filter(sales, HasVendor()), AreaKey);
    assert forall a :: a in all <==> AreaPresent(sales, a) by {
      forall a
        ensures a in all <==> AreaPresent(sales, a)
      {
        var matched := Filter(sales, HasVendor());
        if a in all {
          var k :| 0 <= k < |all| && all[k] == a;
          assert matched[k] in sales;
          var j :| 0 <= j < |sales| && sales[j] == matched[k];
          assert InArea(a)(sales[j]);
        }
        if AreaPresent(sales, a) {
          var j :| 0 <= j < |sales| && InArea(a)(sales[j]);
          assert sales[j] in matched;
          var k :| 0 <= k < |matched| && matched[k] == sales[j];
          assert all[k] == a;
        }
      }
    }
    Distinct(all)
  }

  function HasVendor(): Sale -> bool {
    (s: Sale) => s.vendor.Some?
  }

  // ---- Peak hour per area ----

  /** One row of the peak-hour table. */
  datatype PeakRow = PeakRow(area: string, hour: nat, orders: nat)

  /** The group key test `(area, hour) == (area, h)`. */
  function AtHour(area: string, h: nat): Sale -> bool {
    (s: Sale) => s.vendor.Some? && s.vendor.value.area == area && s.order.placed.hour == h
  }

  /** The `orders` column of group (area, h). */
  function HourCount(sales: seq<Sale>, area: string, h: nat): nat {
    Count(sales, AtHour(area, h))
  }

  /** The first row of an area's block once the (area, hour) counts are sorted by count,
      largest first: the hour with the most orders, and among equal counts the earliest
      hour, as the groups come out ordered by hour before the stable sort. */
  method PeakHour(sales: seq<Sale>, area: string) returns (hour: nat, count: nat)
    requires AreaPresent(sales, area)
    ensures count > 0 && count == HourCount(sales, area, hour)
    ensures forall h: nat :: HourCount(sales, area, h) <= count
    ensures forall h: nat :: HourCount(sales, area, h) == count ==> hour <= h
  {
    hour, count := 0, 0;
    var i := 0;
    while i < |sales|
      invariant 0 <= i <= |sales|
      invariant count == 0 || count == HourCount(sales, area, hour)
      invariant forall j :: 0 <= j < i && InArea(area)(sales[j]) ==>
        HourCount(sales, area, HourOf(sales[j])) <= count &&
        (HourCount(sales, area, HourOf(sales[j])) == count ==> hour <= HourOf(sales[j]))
    {
      if InArea(area)(sales[i]) {
        var h := HourOf(sales[i]);
        var c := HourCount(sales, area, h);
        if c > count || (c == count && h < hour) {
          hour, count := h, c;
        }
      }
      i := i + 1;
    }
    PeakHourCovers(sales, area, hour, count);
  }

  /** What the scan establishes for hours of the area's rows holds for every hour. */
  lemma PeakHourCovers(sales: seq<Sale>, area: string, hour: nat, count: nat)
    requires AreaPresent(sales, area)
    requires count == 0 || count == HourCount(sales, area, hour)
    requires forall j :: 0 <= j < |sales| && InArea(area)(sales[j]) ==>
        HourCount(sales, area, HourOf(sales[j])) <= count &&
        (HourCount(sales, area, HourOf(sales[j])) == count ==> hour <= HourOf(sales[j]))
    ensures count > 0 && count == HourCount(sales, area, hour)
    ensures forall h: nat :: HourCount(sales, area, h) <= count
    ensures forall h: nat :: HourCount(sales, area, h) == count ==> hour <= h
  {
    var j :| 0 <= j < |sales| && InArea(area)(sales[j]);
    CountPositive(sales, AtHour(area, HourOf(sales[j])));
    forall h: nat
      ensures HourCount(sales, area, h) <= count
      ensures HourCount(sales, area, h) == count ==> hour <= h
    {
      CountPositive(sales, AtHour(area, h));
      if HourCount(sales, area, h) > 0 {
        var k :| 0 <= k < |sales| && AtHour(area, h)(sales[k]);
        assert InArea(area)(sales[k]) && HourOf(sales[k]) == h;
      }
    }
  }

  /** A peak-hour row: its count is its (area, hour) group's, positive, at least every
      other hour's count in the area, and its hour is the earliest with that count. */
  ghost predicate IsPeakRow(sales: seq<Sale>, r: PeakRow) {
    && r.orders > 0
    && r.orders == HourCount(sales, r.area, r.hour)
    && (forall h: nat :: HourCount(sales, r.area, h) <= r.orders)
    && (forall h: nat :: HourCount(sales, r.area, h) == r.orders ==> r.hour <= h)
  }

  /** Rows of a table, by area. */
  function PeakAreas(rows: seq<PeakRow>): seq<string> {
    Map(rows, (r: PeakRow) => r.area)
  }

  /** `groupby(["area", "hour"]).count()`, sorted by area and count, then `groupby("area").head(1)`:
      one row per vendor area present, holding that area's peak hour. */
  method PeakHourPerArea(sales: seq<Sale>) returns (rows: seq<PeakRow>)
    ensures NoDup(PeakAreas(rows))
    ensures forall a :: a in PeakAreas(rows) <==> AreaPresent(sales, a)
    ensures forall i :: 0 <= i < |rows| ==> IsPeakRow(sales, rows[i])
  {
    var areas := VendorAreasOf(sales);
    rows := [];
    var k := 0;
    while k < |areas|
      invariant 0 <= k <= |areas|
      invariant PeakAreas(rows) == areas[..k]
      invariant forall i :: 0 <= i < |rows| ==> IsPeakRow(sales, rows[i])
    {
      var hour, count := PeakHour(sales, areas[k]);
      assert IsPeakRow(sales, PeakRow(areas[k], hour, count));
      rows := rows + [PeakRow(areas[k], hour, count)];
      assert areas[..k + 1] == areas[..k] + [areas[k]];
      k := k + 1;
    }
    assert areas[..k] == areas;
  }

  // ---- Top vendors per area ----

  /** One row of the vendor table: orders of one vendor name in one area. */
  datatype VendorRow = VendorRow(area: string, vendorName: string, orders: nat)

  /** The group key test `(area, vendor_name) == (area, name)`. */
  function SoldBy(area: string, name: string): Sale -> bool {
    (s: Sale) => s.vendor.Some? && s.vendor.value.area == area && s.vendor.value.name == name
  }

  /** The `orders` column of group (area, name). */
  function VendorCount(sales: seq<Sale>, area: string, name: string): nat {
    Count(sales, SoldBy(area, name))
  }

  /** Some row was sold by this vendor name in this area. */
  predicate VendorPresent(sales: seq<Sale>, area: string, name: string) {
    exists j :: 0 <= j < |sales| && SoldBy(area, name)(sales[j])
  }

  function NameKey(s: Sale): string {
    if s.vendor.Some? then s.vendor.value.name else ""
  }

  /** The vendor names with rows in this area, each once. */
  function VendorNamesIn(sales: seq<Sale>, area: string): (names: seq<string>)
    ensures NoDup(names)
    ensures forall n :: n in names <==> VendorPresent(sales, area, n)
  {
    var inArea := Filter(sales, InArea(area));
    var all := Map(inArea, NameKey);
    assert forall n :: n in all <==> VendorPresent(sales, area, n) by {
      forall n
        ensures n in all <==> VendorPresent(sales, area, n)
      {
        if n in all {
          var k :| 0 <= k < |all| && all[k] == n;
          assert inArea[k] in sales;
          var j :| 0 <= j < |sales| && sales[j] == inArea[k];
          assert SoldBy(area, n)(sales[j]);
        }
        if VendorPresent(sales, area, n) {
          var j :| 0 <= j < |sales| && SoldBy(area, n)(sales[j]);
          assert sales[j] in inArea;
          var k :| 0 <= k < |inArea| && inArea[k] == sales[j];
          assert all[k] == n;
        }
      }
    }
    Distinct(all)
  }

  function VendorRowOf(sales: seq<Sale>, area: string): string -> VendorRow {
    (n: string) => VendorRow(area, n, VendorCount(sales, area, n))
  }

  function VendorOrders(r: VendorRow): int {
    r.orders
  }

  function VendorNameOf(r: VendorRow): string {
    r.vendorName
  }

  /** One area's block of the vendor table sorted by count, then `.head(3)`. */
  function TopVendorsInArea(sales: seq<Sale>, area: string): (top: seq<VendorRow>)
    ensures |top| <= 3
    ensures SortedDesc(top, VendorOrders)
    ensures NoDup(Map(top, VendorNameOf))
    ensures forall i :: 0 <= i < |top| ==>
      && top[i].area == area
      && top[i].orders == VendorCount(sales, area, top[i].vendorName)
      && top[i].orders > 0
    ensures forall n :: VendorPresent(sales, area, n) && n !in Map(top, VendorNameOf) ==>
      |top| == 3 && VendorCount(sales, area, n) <= top[2].orders
    ensures AreaPresent(sales, area) ==> |top| > 0
  {
    var names := VendorNamesIn(sales, area);
    var unsorted := Map(names, VendorRowOf(sales, area));
    var rows := SortDesc(unsorted, VendorOrders);
    var top := Take(rows, 3);
    VendorRowsFacts(sales, area, names, unsorted, rows);
    TopFacts(sales, area, rows, top);
    assert AreaPresent(sales, area) ==> |names| > 0 by {
      if AreaPresent(sales, area) {
        var j :| 0 <= j < |sales| && InArea(area)(sales[j]);
        assert VendorPresent(sales, area, sales[j].vendor.value.name) by {
          assert SoldBy(area, sales[j].vendor.value.name)(sales[j]);
        }
        assert sales[j].vendor.value.name in names;
      }
    }
    top
  }

  /** The sorted rows of an area: one per vendor name, each with its count. */
  lemma VendorRowsFacts(sales: seq<Sale>, area: string, names: seq<string>, unsorted: seq<VendorRow>, rows: seq<VendorRow>)
    requires NoDup(names)
    requires forall n :: n in names <==> VendorPresent(sales, area, n)
    requires unsorted == Map(names, VendorRowOf(sales, area))
    requires multiset(rows) == multiset(unsorted)
    ensures NoDup(Map(rows, VendorNameOf))
    ensures forall i :: 0 <= i < |rows| ==>
      && rows[i].area == area
      && rows[i].orders == VendorCount(sales, area, rows[i].vendorName)
      && rows[i].orders > 0
    ensures forall n :: VendorPresent(sales, area, n) ==> n in Map(rows, VendorNameOf)
  {
    assert NoDup(unsorted) by {
      forall i, j | 0 <= i < j < |unsorted|
        ensures unsorted[i] != unsorted[j]
      {
        assert unsorted[i].vendorName == names[i] && unsorted[j].vendorName == names[j];
      }
    }
    NoDupPermutation(unsorted, rows);
    forall i | 0 <= i < |rows|
      ensures rows[i] == VendorRowOf(sales, area)(rows[i].vendorName)
      ensures rows[i].orders > 0
    {
      assert rows[i] in multiset(unsorted);
      var k :| 0 <= k < |unsorted| && unsorted[k] == rows[i];
      assert names[k] in names;
      var j :| 0 <= j < |sales| && SoldBy(area, names[k])(sales[j]);
      CountPositive(sales, SoldBy(area, names[k]));
    }
    var rowNames := Map(rows, VendorNameOf);
    forall i, j | 0 <= i < j < |rowNames|
      ensures rowNames[i] != rowNames[j]
    {
      assert rows[i] != rows[j];
    }
    forall n | VendorPresent(sales, area, n)
      ensures n in rowNames
    {
      var k :| 0 <= k < |names| && names[k] == n;
      assert unsorted[k] in multiset(rows);
      var i :| 0 <= i < |rows| && rows[i] == unsorted[k];
      assert rowNames[i] == n;
    }
  }

  /** Keeping the first three sorted rows leaves out only rows whose count does not
      exceed the third kept one. */
  lemma TopFacts(sales: seq<Sale>, area: string, rows: seq<VendorRow>, top: seq<VendorRow>)
    requires SortedDesc(rows, VendorOrders)
    requires NoDup(Map(rows, VendorNameOf))
    requires forall n :: VendorPresent(sales, area, n) ==> n in Map(rows, VendorNameOf)
    requires forall i :: 0 <= i < |rows| ==> rows[i].orders == VendorCount(sales, area, rows[i].vendorName)
    requires top == Take(rows, 3)
    ensures SortedDesc(top, VendorOrders)
    ensures NoDup(Map(top, VendorNameOf))
    ensures forall n :: VendorPresent(sales, area, n) && n !in Map(top, VendorNameOf) ==>
      |top| == 3 && VendorCount(sales, area, n) <= top[2].orders
  {
    var rowNames, topNames := Map(rows, VendorNameOf), Map(top, VendorNameOf);
    assert forall i :: 0 <= i < |topNames| ==> topNames[i] == rowNames[i];
    forall n | VendorPresent(sales, area, n) && n !in topNames
      ensures |top| == 3 && VendorCount(sales, area, n) <= top[2].orders
    {
      var k :| 0 <= k < |rowNames| && rowNames[k] == n;
      assert k >= |top| && |top| == 3;
      assert rows[2].orders >= rows[k].orders;
    }
  }

  /** The blocks of the listed areas, one after another. */
  function TopBlocks(sales: seq<Sale>, areas: seq<string>): seq<VendorRow> {
    if |areas| == 0 then [] else TopVendorsInArea(sales, areas[0]) + TopBlocks(sales, areas[1..])
  }

  /** The row test `area == a`. */
  function RowInArea(a: string): VendorRow -> bool {
    (r: VendorRow) => r.area == a
  }

  /** A block counts all its rows for its own area and none for any other. */
  lemma BlockCount(sales: seq<Sale>, area: string, a: string)
    ensures Count(TopVendorsInArea(sales, area), RowInArea(a)) == if a == area then |TopVendorsInArea(sales, area)| else 0
  {
    CountUniform(TopVendorsInArea(sales, area), RowInArea(a));
  }

  /** An area's rows in the concatenated table are exactly its own block, once. */
  lemma {:induction false} TopBlocksCount(sales: seq<Sale>, areas: seq<string>, a: string)
    requires NoDup(areas)
    ensures Count(TopBlocks(sales, areas), RowInArea(a)) == if a in areas then |TopVendorsInArea(sales, a)| else 0
  {
    if |areas| > 0 {
      var block, rest := TopVendorsInArea(sales, areas[0]), TopBlocks(sales, areas[1..]);
      assert NoDup(areas[1..]);
      TopBlocksCount(sales, areas[1..], a);
      CountAppend(block, rest, RowInArea(a));
      BlockCount(sales, areas[0], a);
      assert a in areas <==> a == areas[0] || a in areas[1..];
      assert areas[0] !in areas[1..];
    }
  }

  /** An area's rows in the concatenated table are its own block, in the block's order. */
  lemma {:induction false} TopBlocksFilter(sales: seq<Sale>, areas: seq<string>, a: string)
    requires NoDup(areas)
    ensures Filter(TopBlocks(sales, areas), RowInArea(a)) == if a in areas then TopVendorsInArea(sales, a) else []
  {
    if |areas| > 0 {
      var block, rest := TopVendorsInArea(sales, areas[0]), TopBlocks(sales, areas[1..]);
      assert NoDup(areas[1..]);
      TopBlocksFilter(sales, areas[1..], a);
      FilterAppend(block, rest, RowInArea(a));
      if a == areas[0] {
        FilterAll(block, RowInArea(a));
      } else {
        FilterNone(block, RowInArea(a));
      }
      assert a in areas <==> a == areas[0] || a in areas[1..];
      assert areas[0] !in areas[1..];
    }
  }

  /** Every row of the concatenated table is a row of its own area's block. */
  lemma {:induction false} TopBlocksRows(sales: seq<Sale>, areas: seq<string>)
    ensures forall r :: r in TopBlocks(sales, areas) ==> r.area in areas && r in TopVendorsInArea(sales, r.area)
  {
    if |areas| > 0 {
      TopBlocksRows(sales, areas[1..]);
      forall r | r in TopBlocks(sales, areas)
        ensures r.area in areas && r in TopVendorsInArea(sales, r.area)
      {
        var block := TopVendorsInArea(sales, areas[0]);
        if r in block {
          var i :| 0 <= i < |block| && block[i] == r;
        } else {
          assert r in TopBlocks(sales, areas[1..]);
        }
      }
    }
  }

  /** The rows each area keeps in the concatenated table. */
  lemma PerAreaCounts(sales: seq<Sale>, a: string)
    ensures Count(TopBlocks(sales, VendorAreasOf(sales)), RowInArea(a)) <= 3
    ensures AreaPresent(sales, a) <==> Count(TopBlocks(sales, VendorAreasOf(sales)), RowInArea(a)) > 0
  {
    var areas := VendorAreasOf(sales);
    TopBlocksCount(sales, areas, a);
    var top := TopVendorsInArea(sales, a);
    assert |top| <= 3;
    assert AreaPresent(sales, a) ==> |top| > 0;
  }

  /** `va.groupby("area").head(3)`: each area's top-three block. */
  function Top3PerArea(sales: seq<Sale>): (rows: seq<VendorRow>)
    ensures forall a :: Count(rows, RowInArea(a)) <= 3
    ensures forall a :: AreaPresent(sales, a) <==> Count(rows, RowInArea(a)) > 0
    ensures forall r :: r in rows ==> AreaPresent(sales, r.area) && r in TopVendorsInArea(sales, r.area)
    ensures forall a :: AreaPresent(sales, a) ==> Filter(rows, RowInArea(a)) == TopVendorsInArea(sales, a)
  {
    var rows := TopBlocks(sales, VendorAreasOf(sales));
    forall a | AreaPresent(sales, a)
      ensures Filter(rows, RowInArea(a)) == TopVendorsInArea(sales, a)
    {
      TopBlocksFilter(sales, VendorAreasOf(sales), a);
    }
    assert forall a :: Count(rows, RowInArea(a)) <= 3 && (AreaPresent(sales, a) <==> Count(rows, RowInArea(a)) > 0) by {
      forall a
        ensures Count(rows, RowInArea(a)) <= 3 && (AreaPresent(sales, a) <==> Count(rows, RowInArea(a)) > 0)
      {
        PerAreaCounts(sales, a);
      }
    }
    TopBlocksRows(sales, VendorAreasOf(sales));
    rows
  }
}

=== FILE: vendor_naming.dfy ===
/** The seeder's vendor rows: one per (area, brand) pair of the table, named by the
    brand alone when the brand occurs once in the whole table and "<brand> - <area>"
    when it occurs in several areas. */
module VendorNaming {
  import opened Seqs
  import opened Money
  import opened Records
  import opened Baghdad

  /** One (area, brand) pair of the table, with the brand's cuisine. */
  datatype Entry = Entry(area: string, brand: string, cuisine: string)

  /** The pairs of one area, in list order. */
  function AreaEntries(area: string, bs: seq<Brand>): (es: seq<Entry>)
    ensures |es| == |bs|
    ensures forall i :: 0 <= i < |bs| ==> es[i] == Entry(area, bs[i].name, bs[i].cuisine)
  {
    seq(|bs|, i requires 0 <= i < |bs| => Entry(area, bs[i].name, bs[i].cuisine))
  }

  /** All pairs, in the order the seeder's nested loops over areas and brands visit them. */
  function Entries(t: seq<(string, seq<Brand>)>): seq<Entry> {
    if |t| == 0 then [] else AreaEntries(t[0].0, t[0].1) + Entries(t[1..])
  }

  /** No two pairs of the same area carry the same brand. */
  predicate UniquePairs(es: seq<Entry>) {
    forall p, q :: 0 <= p < q < |es| && es[p].area == es[q].area ==> es[p].brand != es[q].brand
  }

  /** No brand contains '-'. */
  predicate DashFreeBrands(es: seq<Entry>) {
    forall p :: 0 <= p < |es| ==> '-' !in es[p].brand
  }

  /** A well-formed table flattens into pairs that are unique within each area, whose
      brands are free of '-', and whose areas are keys of the table. */
  lemma {:induction false} EntriesOfWellFormed(t: seq<(string, seq<Brand>)>)
    requires WellFormedTable(t)
    ensures UniquePairs(Entries(t))
    ensures DashFreeBrands(Entries(t))
    ensures forall p :: 0 <= p < |Entries(t)| ==> Entries(t)[p].area in Keys(t)
  {
    if |t| > 0 {
      var head := AreaEntries(t[0].0, t[0].1);
      var rest := Entries(t[1..]);
      var es := Entries(t);
      assert es == head + rest;
      assert Keys(t[1..]) == Keys(t)[1..];
      assert WellFormedTable(t[1..]) by {
        forall k | 0 <= k < |t[1..]|
          ensures DistinctBrands(t[1..][k].1) && DashFree(t[1..][k].1)
        {
          assert t[1..][k] == t[k + 1];
        }
      }
      EntriesOfWellFormed(t[1..]);
      assert DistinctBrands(t[0].1) && DashFree(t[0].1);
      forall p | 0 <= p < |es|
        ensures es[p].area in Keys(t)
      {
        if p >= |head| {
          assert es[p] == rest[p - |head|];
        }
      }
      forall p, q | 0 <= p < q < |es|
        ensures es[p].area == es[q].area ==> es[p].brand != es[q].brand
      {
        if q < |head| {
          assert es[p] == head[p] && es[q] == head[q];
        } else if p >= |head| {
          assert es[p] == rest[p - |head|] && es[q] == rest[q - |head|];
        } else {
          assert es[q] == rest[q - |head|];
          assert es[q].area in Keys(t)[1..];
          assert es[p].area == Keys(t)[0];
          assert es[p].area != es[q].area;
        }
      }
      forall p | 0 <= p < |es|
        ensures '-' !in es[p].brand
      {
        if p >= |head| {
          assert es[p] == rest[p - |head|];
        }
      }
    }
  }

  /** The entry test behind `name_counts[name]`. */
  function BrandIs(name: string): Entry -> bool {
    (e: Entry) => e.brand == name
  }

  /** How many pairs of the whole table carry this brand. */
  function Occurrences(es: seq<Entry>, name: string): nat {
    Count(es, BrandIs(name))
  }

  /** The vendor name the seeder stores for pair `e`. */
  function UniqueName(es: seq<Entry>, e: Entry): string {
    if Occurrences(es, e.brand) > 1 then e.brand + " - " + e.area else e.brand
  }

  /** The first counting loop: a map from each brand to the number of pairs carrying it. */
  method NameCounts(es: seq<Entry>) returns (counts: map<string, nat>)
    ensures forall n :: n in counts <==> Occurrences(es, n) > 0
    ensures forall n :: n in counts ==> counts[n] == Occurrences(es, n)
  {
    counts := map[];
    var i := 0;
    while i < |es|
      invariant 0 <= i <= |es|
      invariant forall n :: n in counts <==> Occurrences(es[..i], n) > 0
      invariant forall n :: n in counts ==> counts[n] == Occurrences(es[..i], n)
    {
      var name := es[i].brand;
      var seen := if name in counts then counts[name] else 0;
      assert es[..i + 1][..i] == es[..i];
      counts := counts[name := seen + 1];
      i := i + 1;
    }
    assert es[..i] == es;
  }

  /** The second loop: one vendor row per pair, with the rounded rating draw. */
  method BuildVendorRows(t: seq<(string, seq<Brand>)>, ratingDraws: seq<real>) returns (rows: seq<Vendor>)
    requires |ratingDraws| == |Entries(t)|
    requires forall i :: 0 <= i < |ratingDraws| ==> 3.6 <= ratingDraws[i] <= 4.9
    ensures |rows| == |Entries(t)|
    ensures forall i :: 0 <= i < |rows| ==>
      && rows[i].name == UniqueName(Entries(t), Entries(t)[i])
      && rows[i].cuisine == Entries(t)[i].cuisine
      && rows[i].area == Entries(t)[i].area
      && 3.6 <= rows[i].rating <= 4.9
  {
    var es := Entries(t);
    var counts := NameCounts(es);
    rows := [];
    var i := 0;
    while i < |es|
      invariant 0 <= i <= |es|
      invariant |rows| == i
      invariant forall j :: 0 <= j < i ==>
        && rows[j].name == UniqueName(es, es[j])
        && rows[j].cuisine == es[j].cuisine
        && rows[j].area == es[j].area
        && 3.6 <= rows[j].rating <= 4.9
    {
      var e := es[i];
      CountPositive(es, BrandIs(e.brand));
      var name := if counts[e.brand] > 1 then e.brand + " - " + e.area else e.brand;
      Round2Within(3.6, 4.9, ratingDraws[i]);
      rows := rows + [Vendor(name, e.cuisine, e.area, Round2(ratingDraws[i]))];
      i := i + 1;
    }
  }

  /** Without '-' in either brand, "<brand> - <area>" determines brand and area. */
  lemma SuffixInjective(a: string, x: string, b: string, y: string)
    requires '-' !in a && '-' !in b
    requires a + " - " + x == b + " - " + y
    ensures a == b && x == y
  {
    var s := a + " - " + x;
    assert forall k :: 0 <= k <= |a| ==> s[k] != '-' by {
      forall k | 0 <= k <= |a| ensures s[k] != '-' {
        if k < |a| { assert s[k] == a[k]; }
      }
    }
    assert forall k :: 0 <= k <= |b| ==> s[k] != '-' by {
      var u := b + " - " + y;
      forall k | 0 <= k <= |b| ensures u[k] != '-' {
        if k < |b| { assert u[k] == b[k]; }
      }
    }
    assert s[|a| + 1] == '-' && s[|b| + 1] == '-';
    assert a == s[..|a|] && b == s[..|b|];
    assert x == s[|a| + 3..] && y == s[|b| + 3..];
  }

  /** A pair keeps its bare brand exactly when its brand occurs once in the table. */
  lemma BareNameIffSingle(es: seq<Entry>, p: int)
    requires 0 <= p < |es|
    ensures Occurrences(es, es[p].brand) >= 1
    ensures UniqueName(es, es[p]) == es[p].brand <==> Occurrences(es, es[p].brand) == 1
  {
    CountPositive(es, BrandIs(es[p].brand));
    if Occurrences(es, es[p].brand) > 1 {
      assert |UniqueName(es, es[p])| > |es[p].brand|;
    }
  }

  /** Vendor names are pairwise distinct when no brand repeats inside an area and
      no brand contains '-'. */
  lemma UniqueNamesDistinct(es: seq<Entry>)
    requires UniquePairs(es) && DashFreeBrands(es)
    ensures forall p, q :: 0 <= p < q < |es| ==> UniqueName(es, es[p]) != UniqueName(es, es[q])
  {
    forall p, q | 0 <= p < q < |es|
      ensures UniqueName(es, es[p]) != UniqueName(es, es[q])
    {
      var ep, eq := es[p], es[q];
      var np, nq := UniqueName(es, ep), UniqueName(es, eq);
      var sp, sq := Occurrences(es, ep.brand) > 1, Occurrences(es, eq.brand) > 1;
      if sp && sq {
        if np == nq {
          SuffixInjective(ep.brand, ep.area, eq.brand, eq.area);
        }
      } else if !sp && !sq {
        if np == nq {
          CountTwo(es, BrandIs(ep.brand), p, q);
        }
      } else if sp {
        assert np[|ep.brand| + 1] == '-';
        assert '-' !in nq;
        assert np != nq;
      } else {
        assert nq[|eq.brand| + 1] == '-';
        assert '-' !in np;
        assert np != nq;
      }
    }
  }

  /** For the seeder's own table: every vendor name is distinct and every vendor
      area is one of the Baghdad neighbourhoods. */
  lemma SeededVendorsDistinct()
    ensures forall p, q :: 0 <= p < q < |Entries(AreaVendors)| ==>
      UniqueName(Entries(AreaVendors), Entries(AreaVendors)[p]) != UniqueName(Entries(AreaVendors), Entries(AreaVendors)[q])
    ensures forall p :: 0 <= p < |Entries(AreaVendors)| ==> Entries(AreaVendors)[p].area in Areas
  {
    TableWellFormed();
    KeysAreAreas();
    EntriesOfWellFormed(AreaVendors);
    UniqueNamesDistinct(Entries(AreaVendors));
  }
}
